=== FILE: README.md ===
# ReMapper core in Dafny

A Dafny model of the integer core under ReMapper's ebiten renderer and its icon-mapping editor:

- **Texture atlas addressing.** Cell counts come from the image and tile sizes. A row-major tile index maps to an atlas sub-rectangle, computed in Go's 32-bit truncating arithmetic.
- **Bitmap-font index.** The layered `rune -> uint16` table is built from a font description. Capitals, then digits in one of three schemes, then lowercase letters, then chains of special characters, each chain overwriting what came before.
- **Tile renderer geometry.** Every draw becomes one blit of an atlas rectangle under a scale-then-translate transform, with the horizontal flip. `DrawCharOnScreen` has guards for a font that is not loaded and for a rune with no slot.
- **Colour-coded text.** The `\[:([\w,]+)\]` directives are found and the string is split at them. The `R,G,B` and named colours are resolved, and the trimmed runs are laid out left to right.
- **Map window.** Per-axis scroll clamping, centring, the visible cell range with its one-cell overscan, and map/screen conversion.
- **Map renderer.** Its own map-to-screen formula, the tile requests `Draw` and `DrawOnMap` emit, and the RGBA minimap buffer.
- **Editor logic.** Row-major index conversion, the sorted key list `SetMapping` builds, the mouse click that selects a list entry or assigns an atlas cell, and the frame countdown of the "saved" message.

## Modelling choices

- **Go semantics.** Go's integer semantics are explicit in module `GoInt`:
  - truncating `/` and `%` (`TruncDiv`, `TruncMod`);
  - `int32` wrap-around (`Wrap32`);
  - `uint16` and `uint8` truncation (`Uint16Of`, `ByteOf`).
- **Scales.** Tile and device scales are positive integers. The editor fixes the tile scale at 4, so `int(float64(n) * scale)` is exactly `n * scale`, and `int(float64(a) / float64(b))` is Go's truncating division.
- **Panics.** A Go panic becomes a precondition. This covers a nil image, a zero integer divisor, `make` with a negative length, and indexing past the fields of a malformed `[:r,g]` code.
- **Positive cell sizes.** The map window's cell size and tile scale are positive (`MapWindow.WellFormed`). This is not a panic in Go, whose float division by zero gives an infinity; see "Left out".
- **Emitted records.** Draw calls are emitted as records (`Blit`, `TileRequest`), not pixels. A draw that emits nothing is the empty sequence.
- **Parameters.** These inputs are parameters:
  - the cell lookup behind `GetTextureIndexAt`;
  - the minimap colour handler;
  - the colour-name resolver;
  - text widths and the space advance;
  - the atlas cell under the mouse;
  - the text measurement and the list's padding, top and icon size;
  - the order in which Go iterates over a map.
- **Pure state.** Every mutation is a pure function that returns the new state.

Behaviour of the code worth noting:

- **A map that fits keeps the requested offset.** When the map is no larger than the window on an axis, `setScrollOffset` stores the requested offset unchanged, even a negative one. `MapWindow.SetScrollOffsetClamps` states this.
- **Centring aims at the middle of the cell.** `PixelOffsetCenter` adds half a cell (`+ 0.5`). So centring on cell (50, 50) of 16-pixel cells at scale 2 in a 320 by 240 window of a 100 by 100 map gives the scroll offset (1456, 1496), as `MapWindow.CenterOnExample` shows.
- **The default colour is a name.** When there are fewer codes than text runs, the parser prepends the code *name* `"white"` and resolves it through the colour-name resolver. It does not use the constant white. Only `toColor` with no codes at all returns the constant.
- **Trimmed runs are measured.** Runs are trimmed before they are measured, so the x offset advances by the width of the trimmed text.
- **A two-field code panics.** A numeric code with exactly two fields (`[:1,2]`) makes `toColor` index past its fields and panic. The parser's precondition excludes it (`ColorCodes.Decodable`).
- **The far edges can stay undrawn.** `Draw` loops over `ceil(window / tile)` cells from the cell under the scroll offset, starting `scroll % tile` pixels left of the window. When the offset is not a multiple of the tile size, a strip that wide at the right and bottom edges is never drawn, although `GetVisibleMap` counts the cell there as visible. In a 320-pixel window of 32-pixel tiles scrolled to 1456, the last tile ends at pixel 304 and column 55 is never looked up (`MapRenderer.DrawLeavesRightStrip`).
- **Resizing does not re-clamp.** After `OnScreenSizeChanged` the scroll offset is not clamped again and may lie outside the range until the next scroll (`MapWindow.ResizeMayLeaveRange`).

## Model

| member | source | states |
|---|---|---|
| Atlas.GetCellCount | renderer/atlas.go:39-44 | For positive tile sizes the cell grid fits in the image and leaves less than one tile over on each axis: `0 <= cols*tw <= width < (cols+1)*tw`, likewise for rows |
| Atlas.GetTileSize | renderer/atlas.go:25-27 | The reported tile size is the width and height of every sub-image the atlas hands out, whatever the index |
| Atlas.GetAtlasSize | renderer/atlas.go:29-33 | Every tile of the cell grid lies inside the rectangle from (0,0) to the reported size |
| Atlas.NewAtlasReportsTileSize | renderer/atlas.go:25-52 | A freshly built atlas reports the constructor's tile sizes and the image's width and height unchanged |
| Atlas.ExtractSubImageFromAtlas | renderer/renderer.go:433-453 | The rectangle for any index is exactly one tile wide and one tile high |
| Atlas.SubImageOfValidIndex | renderer/renderer.go:438-449 | For an index inside the grid the 32-bit arithmetic does not wrap: the rectangle's corner is `((i mod cols)*tw, (i div cols)*th)` and the rectangle lies inside the image |
| Atlas.WrappedCell | renderer/renderer.go:438-442 | With every product below 2^31, the `int32` column/row products equal the exact ones |
| Atlas.SubImagesDisjoint | renderer/renderer.go:438-449 | Two distinct grid indices address rectangles that share no pixel |
| Atlas.SubImagesCoverGrid | renderer/renderer.go:438-449 | On a grid of at most 2^31 cells (`Cols*Rows <= 2^31`, where the `int32` indices run out), every pixel of the cell grid lies in the rectangle of some grid index |
| Atlas.Example256Atlas | renderer/renderer.go:433-453 | A 256x256 image of 16x16 tiles has 16x16 cells and tile 17 is the rectangle (16,16)-(32,32) |
| BitmapFont.NewFontIndexFromDescription | renderer/bmpfont.go:31-72 | The table's keys are exactly the layer keys (capitals, digits, lowercase when its index is given) plus every chain character |
| BitmapFont.FontIndexKeys | renderer/bmpfont.go:41-55 | Whatever the description, the table has at least 36 keys: the 26 capitals and the 10 digits always get a slot |
| BitmapFont.CapitalEntries | renderer/bmpfont.go:41-43 | `'A'+i` maps to `uint16(IndexOfCapitalA + i)` unless a chain claims it |
| BitmapFont.DigitEntries | renderer/bmpfont.go:36-55 | Digits follow the one-based scheme when `IndexOfOne` is set (`'0'` at `IndexOfOne+9`, `IndexOfZero` ignored), start at `IndexOfZero` when only it is set, and follow the capitals otherwise, unless a chain claims them |
| BitmapFont.SmallLetterEntries | renderer/bmpfont.go:57-62 | Lowercase `'a'+i` has a slot iff `IndexOfSmallA` is set or a chain mentions it; from the layer it sits at `IndexOfSmallA + i` |
| BitmapFont.ChainEntries | renderer/bmpfont.go:64-69 | Chains are applied last and in order: a chain character's slot is `StartIndex + k` at its last occurrence, overriding every layer and every earlier chain |
| BitmapFont.ApplyChainsMiss | renderer/bmpfont.go:64-69 | A rune no chain mentions keeps the slot (or the absence of one) the layers gave it |
| BitmapFont.BuiltFontLoadedIffAtlas | renderer/bmpfont.go:8-10 | A font built from any description is loaded iff its atlas has an image, since the table is never empty |
| TileRenderer.DrawTile | renderer/renderer.go:287-297 | The tile drawn is the atlas rectangle of the requested index in the requested tint. Its left and right edges land on `screenX*ds` and `screenX*ds + tileSizeX*scaleX*ds` in either order, the right one first when flipped. Its rows land on `screenY*ds` to `screenY*ds + tileSizeY*scaleY*ds` |
| TileRenderer.FlipMirrors | renderer/renderer.go:288-296 | Flipped, source column `x` lands where the unflipped draw puts column `tileSizeX - x`, so the tile covers the same columns mirrored; rows are unchanged |
| TileRenderer.DrawDefaultScaleTile | renderer/renderer.go:245-247 | A request drawn at the live tile scale has its corner at the device-scaled position and its far corner one tile times the tile and device scales further on, in both axes. It shows the requested index's rectangle in the requested tint |
| TileRenderer.DefaultScaleTilesAbut | renderer/renderer.go:245-247 | Requests one scaled tile apart are drawn edge to edge: the first tile's right (bottom) edge is the second's left (top) edge, so no gap and no overlap |
| TileRenderer.DrawCharOnScreen | renderer/renderer.go:331-351 | Exactly one glyph is drawn iff the font is loaded and the rune has a slot, otherwise nothing is drawn. The glyph is the rune's tile, with its corner at the unscaled position and its far corner one tile times `deviceScale*scale` further on |
| ColorCodes.MatchAt | renderer/renderer.go:382-383 | A reported code is a real `[:name]` occurrence at that position |
| ColorCodes.MatchAtComplete | renderer/renderer.go:382-383 | Every `[:name]` occurrence is found with exactly that name |
| ColorCodes.FindAllScanned | renderer/renderer.go:390 | The scan returns the leftmost non-overlapping codes, in order, missing none |
| ColorCodes.ScannedIsFindAll | renderer/renderer.go:390 | The leftmost non-overlapping sequence of codes is unique: any such sequence is the scan's result |
| ColorCodes.SplitRejoin | renderer/renderer.go:385 | Putting the codes back between the split pieces gives the string back |
| ColorCodes.TrimSpaceRemovesEnds | renderer/renderer.go:397 | Trimming removes only white space and only from the two ends; it leaves nothing iff the string is all white space |
| ColorCodes.TrimSpaceIdempotent | renderer/renderer.go:397 | Trimming twice is trimming once |
| ColorCodes.SplitCommaJoin | renderer/renderer.go:419 | Splitting on commas and joining with commas gives the string back |
| ColorCodes.JoinCommaSplit | renderer/renderer.go:419 | Comma-free fields joined with commas split back into the same fields |
| ColorCodes.FieldCount | renderer/renderer.go:418-419 | There is one more field than there are commas |
| ColorCodes.Atoi | renderer/renderer.go:420-422 | The result lies in the 64-bit range, and a string that does not start with a sign or digit gives 0 |
| ColorCodes.AtoiOfDigits | renderer/renderer.go:420-422 | A digit string reads as its decimal value, clamped to the largest 64-bit integer |
| ColorCodes.AtoiDecimal | renderer/renderer.go:420-422 | Reading back the decimal spelling of a number in the 64-bit range gives the number |
| ColorCodes.NameColor | renderer/renderer.go:417-425 | A name without a comma is resolved by the colour-name resolver; a numeric name gives an opaque colour |
| ColorCodes.NumericCodeColor | renderer/renderer.go:418-423 | `[:r,g,b]` gives the opaque colour whose channels are `r`, `g`, `b` modulo 256 |
| ColorCodes.ToColor | renderer/renderer.go:413-426 | With no codes the colour is white; a code without a comma is exactly what the colour-name resolver returns for its name; a numeric code is opaque |
| ColorCodes.ToColorNumeric | renderer/renderer.go:413-423 | The single code `[:r,g,b]` gives the opaque colour whose channels are `r`, `g`, `b` modulo 256, whatever the resolver |
| ColorCodes.TextParts | renderer/renderer.go:385-388 | After the leading empty piece is dropped there are as many pieces as codes, or one more |
| ColorCodes.CodeNames | renderer/renderer.go:390-394 | With "white" prepended when needed, there is one colour name per piece |
| ColorCodes.EmitShape | renderer/renderer.go:395-410 | At most one part per piece; every part is non-empty and trimmed; the first starts at the starting offset and each later one a width plus one space after the previous |
| ColorCodes.ParseColorCodedText | renderer/renderer.go:377-411 | At most one part per piece. The parsed parts are non-empty and trimmed, start at offset 0, and are spaced by the previous width plus one space advance |
| ColorCodes.EmitIsLayout | renderer/renderer.go:395-410 | The parser's loop over pieces and paired codes produces the layout of the coloured segments those pieces line up with |
| ColorCodes.ParseFollowsCodes | renderer/renderer.go:377-426 | The parser panics on no input whose segments all decode, and it lays out each run of text in the colour of the code before it, white before the first code |
| MapWindow.NewMapWindow | renderer/mapwindow.go:21-35 | A new window starts scrolled to the origin with the given sizes |
| MapWindow.CellsTileMapSize | renderer/mapwindow.go:37-45 | Every cell of the map has its tile inside `[0, pixel size]`, and the last cell's tile ends exactly on the pixel size, on each axis |
| MapWindow.ScrolledToEndShowsLastCell | renderer/mapwindow.go:71-95 | Scrolled to the pixel size minus the window size, the last column and row end exactly on the window's far edges |
| MapWindow.ClampAxis | renderer/mapwindow.go:78-92 | A map larger than the window gets an offset in `[0, mapPx - window]`, an in-range request is kept and out-of-range ones go to the nearer bound; otherwise the request is kept as is |
| MapWindow.SetScrollOffset | renderer/mapwindow.go:71-95 | The new offset is in the scroll range and nothing but the offset changes |
| MapWindow.SetScrollOffsetClamps | renderer/mapwindow.go:75-94 | Per axis: in range when the map is larger than the window, in-range requests kept, and the request stored unchanged, even a negative one, when the map fits |
| MapWindow.SetScrollOffsetAxesIndependent | renderer/mapwindow.go:78-94 | The new x offset depends only on the requested x and the new y only on the requested y |
| MapWindow.SetScrollOffsetIdempotent | renderer/mapwindow.go:71-95 | Re-applying a clamped offset changes nothing |
| MapWindow.ScrollBy | renderer/mapwindow.go:58-62 | Scrolling leaves the offset in range and changes nothing else |
| MapWindow.ScrollByZero | renderer/mapwindow.go:58-62 | Scrolling by (0,0) leaves a clamped window unchanged |
| MapWindow.ScrollByMovesExactly | renderer/mapwindow.go:58-62 | On each axis where the map fits the window, or the target stays in range, scrolling by `d` moves the offset by exactly `d` |
| MapWindow.PixelOffsetCenter | renderer/mapwindow.go:149-156 | For a non-negative cell, the centre pixel is half a tile (rounded down) past the cell's corner, inside the cell's tile |
| MapWindow.CenterAxisInCell | renderer/mapwindow.go:149-156 | The centre pixel of a non-negative cell lies in the cell, half a tile (rounded down) from its edge |
| MapWindow.CenterOn | renderer/mapwindow.go:64-69 | Centring leaves the offset in range and changes nothing else |
| MapWindow.CenterOnCenters | renderer/mapwindow.go:64-69 | When no clamping is needed, the cell's centre ends exactly half a window (Go's `size/2`) from the window edge |
| MapWindow.CenterOnExample | renderer/mapwindow.go:64-69 | Centring on cell (50,50) of 16-pixel cells at scale 2 in a 320x240 window of a 100x100 map gives the offset (1456,1496) |
| MapWindow.ResetScrolling | renderer/mapwindow.go:189-191 | The offset becomes (0,0) and nothing else changes |
| MapWindow.OnScreenSizeChanged | renderer/mapwindow.go:185-187 | Only the window size changes |
| MapWindow.ResizeMayLeaveRange | renderer/mapwindow.go:185-187 | A resize can leave a previously clamped offset outside the new scroll range |
| MapWindow.CeilDiv | renderer/mapwindow.go:113-114 | The rounded-up quotient `r` satisfies `(r-1)*b < a <= r*b` |
| MapWindow.GetVisibleMap | renderer/mapwindow.go:97-120 | The range starts at the cell under the window's top left pixel and spans `n` cells per axis, where `(n-2)*ts < window <= (n-1)*ts`: enough to cover the window, plus one |
| MapWindow.MapToScreen | renderer/mapwindow.go:125-129 | Converting the screen position back with `GetMapCellAtScreenPos` gives the cell, for every cell and every scroll offset |
| MapWindow.GetMapCellAtScreenPos | renderer/mapwindow.go:157-163 | A non-negative map pixel lies in the returned cell's tile; a negative one lies in the tile just before it, since Go's conversion rounds toward zero |
| MapWindow.ScreenTileIsCell | renderer/mapwindow.go:141-163 | Every pixel of a non-negative cell's screen tile converts back to that cell |
| MapWindow.ScreenPixelsVisible | renderer/mapwindow.go:97-163 | With a non-negative scroll, the cell under every pixel of the window is in the visible range |
| MapWindow.VisibleCellsNearScreen | renderer/mapwindow.go:97-129 | With a non-negative scroll, every visible cell's tile starts within one tile of the window on each side |
| MapWindow.ResetShowsOrigin | renderer/mapwindow.go:97-129 | After a reset the visible range starts at cell (0,0) and a cell's screen position is its map pixel position |
| MapRenderer.StepPosition | renderer/maprenderer.go:60-66 | The draw position `-(scroll % ts) + k*ts` is the pixel offset of the cell `k` tiles past the first minus the scroll, for every scroll offset |
| MapRenderer.RendererMapToScreen | renderer/maprenderer.go:89-106 | The renderer's own map-to-screen conversion agrees with the window's `MapToScreen` on every cell and every scroll offset, negative ones included |
| MapRenderer.DrawOnMap | renderer/maprenderer.go:74-80 | Nothing is drawn iff the cell is not visible; a visible cell gets exactly one request at its screen position |
| MapRenderer.DrawStep | renderer/maprenderer.go:63-72 | Each loop step appends the next cell's tiles, at the position the window gives that cell |
| MapRenderer.DrawRow | renderer/maprenderer.go:64-71 | The inner loop produces the row of the scene |
| MapRenderer.Draw | renderer/maprenderer.go:40-73 | The frame is the scene: every cell of `firstTile + [0, tileCount)` is looked up, in row order, and each draw info is drawn at the position the window gives that cell |
| MapRenderer.DrawnCellsVisible | renderer/maprenderer.go:50-67 | Every cell `Draw` looks up is in the visible range |
| MapRenderer.RowSceneVisible | renderer/maprenderer.go:63-72 | Every tile of a drawn row is at the screen position of a visible cell |
| MapRenderer.SceneVisible | renderer/maprenderer.go:40-73 | `Draw` culls: every tile of the frame is at the screen position of a visible cell |
| MapRenderer.VisibleMapOverscan | renderer/maprenderer.go:50-58 | For a window of non-negative size the visible range is the drawn range plus one column and one row |
| MapRenderer.DrawLeavesRightStrip | renderer/maprenderer.go:50-72 | With the window 320 wide, tiles 32 wide and the scroll at 1456, Draw covers columns 45 to 54, the last ending at pixel 304, while the visible column 55 is never drawn |
| MapRenderer.SlotCell | renderer/maprenderer.go:174-177 | A cell's channel byte lies in the buffer and belongs back to that cell and channel |
| MapRenderer.WriteCellStep | renderer/maprenderer.go:170-177 | Writing one cell's four channels moves the buffer from one partial state of the loops to the next |
| MapRenderer.UpdateMiniMap | renderer/maprenderer.go:165-181 | The buffer holds `mapSize.x * mapSize.y * 4` bytes, every one of them the channel of its own cell's colour |
| MapRenderer.MiniMapCellBytes | renderer/maprenderer.go:169-178 | Bytes `(y*W+x)*4 .. +3` hold the R, G, B, A of cell `(x,y)` |
| MapRenderer.MiniMapSlotsDisjoint | renderer/maprenderer.go:174-177 | Distinct cells own distinct bytes |
| MapRenderer.DefaultMiniMapIsWhite | renderer/maprenderer.go:21-26 | With the default handler every byte is 255 (opaque white) |
| Engine.IndexToXY | engine.go:312-314 | For a non-negative index and a positive width the column is in `[0, width)` and the row is non-negative |
| Engine.XYToIndex | engine.go:316-318 | A column inside the row gives an index in row `y`'s block `[y*w, (y+1)*w)` |
| Engine.IndexRoundTrip | engine.go:312-318 | Splitting an index and joining it again gives the index, for every non-zero width |
| Engine.XYRoundTrip | engine.go:312-318 | Joining a column inside the row with a non-negative row and splitting again gives them back |
| Engine.SortKeys | engine.go:250-252 | The sort is a permutation of its input |
| Engine.SortKeysSorted | engine.go:250-252 | The sort's result is ascending in `cmp.Compare` order |
| Engine.SortedPermutationUnique | engine.go:250-252 | Two ascending sequences holding the same strings are equal |
| Engine.NewEngine | engine.go:47-61 | A new editor has nothing selected and no message showing |
| Engine.FreshEditorHasNoSelection | engine.go:54-55 | A new editor's list and atlas selections are both -1 |
| Engine.SetMapping | engine.go:241-258 | The mapping is stored. The list keys are ascending, a permutation of the mapping's keys, and contain exactly its keys. The list is laid out again: one hit box per key in that order, and the width is the widest text plus the icon width plus three paddings. The selection and the countdown are kept |
| Engine.ListOffset | engine.go:195 | The distance below the list's top after the given entries; with text heights that are never negative it is at least the line distance per entry |
| Engine.ElementBounds | engine.go:171-197 | One hit box per key. Entry `i` starts below the list's top by the text heights plus line distances of the entries before it, and spans the icon height |
| Engine.ElementBoundsDescend | engine.go:171-197 | With text heights that are never negative, the first box starts at the list's top and later boxes start strictly further down |
| Engine.MaxTextWidth | engine.go:164-181 | The width is non-negative, at least every key's text width, and either 0 or the width of some key |
| Engine.SetMappingDeterministic | engine.go:246-255 | The whole result, list order and layout included, does not depend on Go's map iteration order |
| Engine.FirstHitFrom | engine.go:262-268 | Returns the first entry whose inclusive extent contains the cursor row, or none when no entry does |
| Engine.HandleMouseClick | engine.go:260-281 | In the list area the first hit entry is selected with its icon and the click is consumed, and a miss changes nothing; outside it, with an entry selected and a non-empty list, the key is mapped to the 32-bit atlas index, which becomes the selected icon; the atlas branch never consumes the click and otherwise changes nothing |
| Engine.AtlasClickPicksCell | engine.go:272-277 | On a grid of at most 2^31 cells, the index a click on cell `p` stores is in the grid, splits back into `p`, and addresses the rectangle at `p`'s pixel corner |
| Engine.Update | engine.go:104-113 | The countdown never goes negative and nothing else changes |
| Engine.FramesCountDown | engine.go:109-111 | After `n` frames `max(t - n, 0)` ticks are left and nothing else changes |
| Engine.SavedMessageDuration | input.go:10-14 | After the frame in which S is pressed the message shows for 28 more frames and is gone from then on |

## Left out

- Image decoding and file loading (`mustOpen`, `mustLoadImage`, `NewTextureAtlas`'s file name): the atlas is built from the decoded image size.
- ebiten's `SubImage` clips the rectangle to the image. The model returns the requested rectangle; the lemmas show it lies inside the image for every index in the grid.
- Go's `int` is 64 bits. Products such as `mapSize * gridSize * scale` are unbounded here; 64-bit overflow is not modelled. The explicit truncations (`int32`, `uint16`, `uint8`, `Atoi`'s range) are modelled.
- Floating point paths: `MapFloatToScreen`, `CenterOnFloat`, `GetExactMapPositionFromScreenPos`, `DrawOnMapF`, `mapFloatToScreen` and `GetScaledTileSize`. They need real-valued scales.
- TileRenderer.DrawTile: the tint is carried unchanged. The `float32` colour grading by the global scale colour is not modelled, and neither is `DrawCharOnScreen`'s alpha scaling.
- The other draw helpers of the tile renderer (borders, rectangles, grid and string drawing, TrueType text, `DebugLine`) and its setters are framework glue over `DrawTile` and foreign calls.
- TrueType metrics (`MeasureString`, `GlyphAdvance`) are parameters of the parser, in whole pixels.
- `GetTextureIndexAt` forwards to the closure the window was built with; that lookup is a parameter of `Draw`.
- The minimap colour handler is a function parameter returning a colour rather than writing into a `[4]byte`. `WritePixels` and image creation are foreign calls.
- Editor state outside the modelled operations is not part of `Engine`: the renderer, fonts, title, scales, layout, records and file name.
- Engine I/O is not modelled: `saveChanges`, `SetTTFFont`, `Draw`, `Layout`, `OnMouseMoved` and `gridToScreen`.
- `atlasGridFromScreenPos` divides floats by the atlas scale. Its result, the atlas cell under the mouse, is an input of `HandleMouseClick`.
- `updateElementBounds` is modelled with whole-pixel text measurements and an integer padding, list top and icon size. The drawing positions (`drawInfos`) and the atlas bounds it also computes are not modelled. Drawing and the mouse-move handler read them. The click handler reads the atlas bounds only through `atlasGridFromScreenPos`, whose result is a parameter of `HandleMouseClick`. So a click in the padding right of the list, or below the atlas, still stores whatever index that cell gives; the model admits every such cell.
- MapWindow.GetVisibleMap and MapWindow.GetMapCellAtScreenPos: modelled for positive cell sizes and tile scales only. Go divides floats there, so a zero cell size gives an infinity or NaN rather than a panic; that case has no integer meaning.
- Engine.Update: only the S key and the countdown are modelled. Mouse polling and the scroll wheel are input-device glue, and `ebiten.Termination` on quit is a framework signal.
- Go's randomised map iteration order in `SetMapping` is an explicit enumeration parameter. `slices.SortStableFunc` is modelled as an insertion sort, and keys are distinct, so stability plays no role.
- Engine.AtlasClickPicksCell: stated only for atlases whose grid has at most 2^31 cells, where the `int32` conversion of the index is exact.
- MapWindow.ScreenPixelsVisible: stated only for non-negative scroll offsets. With a negative offset, Go's division rounds toward zero rather than down, and that case is not analysed.
- Go strings are UTF-8 byte strings. Mapping keys and coloured text are modelled as sequences of Unicode scalar values, so invalid UTF-8 is not represented. No byte offset is observable here: widths are parameters, and for valid UTF-8 `cmp.Compare`'s byte order is code-point order.
- main.go and input.go polling: command-line parsing, window setup and mouse and keyboard state are I/O.

=== FILE: atlas.dfy ===
/** A texture atlas: one image cut into a fixed grid of equally sized
    tiles, addressed by a row-major linear index.

    Only the image's pixel dimensions matter to the addressing; decoding the
    image file is not part of this model, so the constructor takes the
    decoded size directly. A zero-valued atlas (Go's nil image pointer) is
    an atlas whose `image` is `None`. */
module Atlas {
  import opened GoInt
  import opened Geometry

  datatype Image = Image(width: nat, height: nat)

  datatype TextureAtlas = TextureAtlas(image: Option<Image>, tileSizeX: int, tileSizeY: int)

  function NewTextureAtlas(image: Image, tileSizeX: int, tileSizeY: int): TextureAtlas
  {
    TextureAtlas(Some(image), tileSizeX, tileSizeY)
  }

  /** The tile size the atlas reports is the size of every sub-image it
      hands out, whatever the index. */
  function GetTileSize(a: TextureAtlas): (r: Point)
    ensures a.image.Some? && a.tileSizeX != 0 && ItemCountX(a) != 0 ==>
      forall i: Int32 :: ExtractSubImageFromAtlas(i, a).Width() == r.x && ExtractSubImageFromAtlas(i, a).Height() == r.y
  {
    Point(a.tileSizeX, a.tileSizeY)
  }

  /** The image's size in pixels; dereferencing a nil image panics. Every
      tile of the cell grid lies inside `(0, 0)`-`size`. */
  function GetAtlasSize(a: TextureAtlas): (r: Point)
    requires a.image.Some?
    ensures forall i: Int32 | ValidIndex(a, i) ::
      ItemCountX(a) != 0 && ExtractSubImageFromAtlas(i, a).Within(Rect(Point(0, 0), r))
  {
    assert forall i: Int32 | ValidIndex(a, i) :: ItemCountX(a) != 0 && ExtractSubImageFromAtlas(i, a).Within(ImageBounds(a)) by {
      forall i: Int32 | ValidIndex(a, i)
        ensures ItemCountX(a) != 0 && ExtractSubImageFromAtlas(i, a).Within(ImageBounds(a))
      {
        SubImageOfValidIndex(a, i);
      }
    }
    Point(a.image.value.width, a.image.value.height)
  }

  /** The number of whole tiles across and down the image (Go's integer
      division, which panics on a zero tile size). For positive tile sizes
      the grid fits in the image and leaves less than one tile over. */
  function GetCellCount(a: TextureAtlas): (r: Point)
    requires a.image.Some?
    requires a.tileSizeX != 0 && a.tileSizeY != 0
    ensures a.tileSizeX > 0 ==>
      0 <= r.x * a.tileSizeX <= a.image.value.width < (r.x + 1) * a.tileSizeX
    ensures a.tileSizeY > 0 ==>
      0 <= r.y * a.tileSizeY <= a.image.value.height < (r.y + 1) * a.tileSizeY
  {
    var w, h := a.image.value.width, a.image.value.height;
    TruncIsEuclideanWhenNonNegative(w, a.tileSizeX);
    TruncIsEuclideanWhenNonNegative(h, a.tileSizeY);
    DivBounds(w, a.tileSizeX);
    DivBounds(h, a.tileSizeY);
    Point(TruncDiv(w, a.tileSizeX), TruncDiv(h, a.tileSizeY))
  }

  /** `int32(width / tileSizeX)`: the tiles per row as the addressing code
      computes it, in 32-bit arithmetic. */
  function ItemCountX(a: TextureAtlas): Int32
    requires a.image.Some? && a.tileSizeX != 0
  {
    Wrap32(TruncDiv(a.image.value.width, a.tileSizeX))
  }

  /** The pixel rectangle of tile `index`: column `index % cols`, row
      `index / cols`, each scaled by the tile size, all in Go's 32-bit
      truncating arithmetic. A zero column count panics in Go; an index
      outside the grid gives a rectangle outside the image, unchecked. */
  function ExtractSubImageFromAtlas(index: Int32, a: TextureAtlas): (r: Rect)
    requires a.image.Some? && a.tileSizeX != 0
    requires ItemCountX(a) != 0
    ensures r.Width() == a.tileSizeX && r.Height() == a.tileSizeY
  {
    var cols := ItemCountX(a);
    var topLeft := Point(
      Wrap32(Wrap32(TruncMod(index, cols)) * Wrap32(a.tileSizeX)),
      Wrap32(Wrap32(TruncDiv(index, cols)) * Wrap32(a.tileSizeY)));
    Rect(topLeft, Point(topLeft.x + a.tileSizeX, topLeft.y + a.tileSizeY))
  }

  /** An atlas whose tiles have positive size and whose image fits the
      32-bit arithmetic of the addressing code. */
  predicate Addressable(a: TextureAtlas)
  {
    && a.image.Some?
    && a.tileSizeX > 0 && a.tileSizeY > 0
    && a.image.value.width < TwoTo31 && a.image.value.height < TwoTo31
  }

  function Cols(a: TextureAtlas): int
    requires Addressable(a)
  {
    a.image.value.width / a.tileSizeX
  }

  function Rows(a: TextureAtlas): int
    requires Addressable(a)
  {
    a.image.value.height / a.tileSizeY
  }

  /** The index lies in the cell grid: `0 <= index < cols * rows`. */
  predicate ValidIndex(a: TextureAtlas, index: int)
  {
    Addressable(a) && 0 <= index < Cols(a) * Rows(a)
  }

  function ImageBounds(a: TextureAtlas): Rect
    requires a.image.Some?
  {
    Rect(Point(0, 0), Point(a.image.value.width, a.image.value.height))
  }

  /** For an index in the grid no 32-bit wrap happens: the rectangle sits at
      column `index % cols`, row `index / cols` with Euclidean arithmetic,
      and it lies inside the image. */
  lemma SubImageOfValidIndex(a: TextureAtlas, index: Int32)
    requires ValidIndex(a, index)
    ensures ItemCountX(a) == Cols(a) > 0
    ensures ExtractSubImageFromAtlas(index, a).min ==
      Point((index % Cols(a)) * a.tileSizeX, (index / Cols(a)) * a.tileSizeY)
    ensures ExtractSubImageFromAtlas(index, a).Within(ImageBounds(a))
  {
    var w, h := a.image.value.width, a.image.value.height;
    var tx, ty := a.tileSizeX, a.tileSizeY;
    var cols, rows := Cols(a), Rows(a);
    GridPositive(a, index);
    var col, row := index % cols, index / cols;
    assert 0 <= col < cols by {
      DivBounds(index, cols);
    }
    DivBelow(index, cols, rows);
    CellFits(col, cols, tx, w);
    CellFits(row, rows, ty, h);
    WrappedCell(index, cols, tx, ty, col, row);
  }

  /** A grid holding a valid index has at least one column and one row,
      its columns span at most the image and the 32-bit column count is
      the true one. */
  lemma GridPositive(a: TextureAtlas, index: int)
    requires ValidIndex(a, index)
    ensures Cols(a) > 0 && Rows(a) > 0
    ensures Cols(a) * a.tileSizeX <= a.image.value.width
    ensures Rows(a) * a.tileSizeY <= a.image.value.height
    ensures ItemCountX(a) == Cols(a)
  {
    var w, h := a.image.value.width, a.image.value.height;
    var cols, rows := Cols(a), Rows(a);
    DivBounds(w, a.tileSizeX);
    DivBounds(h, a.tileSizeY);
    assert cols > 0 && rows > 0 by {
      MulMono(cols, 0, rows);
      MulMono(rows, 0, cols);
      assert cols * rows == rows * cols;
    }
    TruncIsEuclideanWhenNonNegative(w, a.tileSizeX);
    CellFits(0, cols, a.tileSizeX, w);
  }

  /** With every product inside the 31-bit range, the 32-bit arithmetic of
      the addressing code is exact. */
  lemma WrappedCell(index: Int32, cols: int, tx: int, ty: int, col: int, row: int)
    requires 0 < cols < TwoTo31 && 0 <= index
    requires col == index % cols && row == index / cols
    requires 0 < tx < TwoTo31 && 0 < ty < TwoTo31
    requires 0 <= col * tx < TwoTo31 && 0 <= row * ty < TwoTo31
    ensures Wrap32(Wrap32(TruncMod(index, cols)) * Wrap32(tx)) == col * tx
    ensures Wrap32(Wrap32(TruncDiv(index, cols)) * Wrap32(ty)) == row * ty
  {
    TruncIsEuclideanWhenNonNegative(index, cols);
    assert TruncMod(index, cols) == col && TruncDiv(index, cols) == row;
    assert 0 <= col < cols by {
      DivBounds(index, cols);
    }
    assert 0 <= row <= index by {
      DivBounds(index, cols);
      MulBounds(cols, row);
    }
    assert Wrap32(col) == col && Wrap32(row) == row;
    assert Wrap32(tx) == tx && Wrap32(ty) == ty;
    assert Wrap32(col * tx) == col * tx && Wrap32(row * ty) == row * ty;
  }

  /** Cell `k` of `n` cells of size `t` ends no later than the `n * t <= limit`
      pixels they span. */
  lemma CellFits(k: int, n: int, t: int, limit: int)
    requires 0 <= k < n && t > 0
    requires n * t <= limit
    ensures 0 <= k * t && k * t + t <= limit
  {
    MulMono(0, k, t);
    MulMono(k + 1, n, t);
  }

  /** Distinct grid indices address rectangles that share no pixel. */
  lemma SubImagesDisjoint(a: TextureAtlas, i: Int32, j: Int32)
    requires ValidIndex(a, i) && ValidIndex(a, j) && i != j
    ensures ExtractSubImageFromAtlas(i, a).DisjointFrom(ExtractSubImageFromAtlas(j, a))
  {
    SubImageOfValidIndex(a, i);
    SubImageOfValidIndex(a, j);
    var cols := Cols(a);
    var ci, rowi, cj, rowj := i % cols, i / cols, j % cols, j / cols;
    assert ci != cj || rowi != rowj by {
      DivBounds(i, cols);
      DivBounds(j, cols);
    }
    GridCellsApart(ci, rowi, cj, rowj, a.tileSizeX, a.tileSizeY);
  }

  /** Two different grid cells are separated along at least one axis. */
  lemma GridCellsApart(ci: int, ri: int, cj: int, rj: int, tx: int, ty: int)
    requires ci != cj || ri != rj
    requires tx > 0 && ty > 0
    ensures || ci * tx + tx <= cj * tx || cj * tx + tx <= ci * tx
            || ri * ty + ty <= rj * ty || rj * ty + ty <= ri * ty
  {
    if ci < cj {
      MulMono(ci + 1, cj, tx);
    } else if cj < ci {
      MulMono(cj + 1, ci, tx);
    } else if ri < rj {
      MulMono(ri + 1, rj, ty);
    } else {
      MulMono(rj + 1, ri, ty);
    }
  }

  /** The grid rectangles together cover every pixel of the `cols * rows`
      grid: the pixel `p` lies in the tile at column `p.x / tileSizeX`,
      row `p.y / tileSizeY`, provided the grid is small enough for every
      cell to have an `int32` index. */
  lemma SubImagesCoverGrid(a: TextureAtlas, p: Point) returns (index: Int32)
    requires Addressable(a)
    requires Cols(a) * Rows(a) <= TwoTo31
    requires 0 <= p.x < Cols(a) * a.tileSizeX && 0 <= p.y < Rows(a) * a.tileSizeY
    ensures ValidIndex(a, index)
    ensures ExtractSubImageFromAtlas(index, a).Contains(p)
  {
    var cols, rows := Cols(a), Rows(a);
    var col, row := p.x / a.tileSizeX, p.y / a.tileSizeY;
    DivBelow(p.x, a.tileSizeX, cols);
    DivBelow(p.y, a.tileSizeY, rows);
    DivBounds(p.x, a.tileSizeX);
    DivBounds(p.y, a.tileSizeY);
    var i := row * cols + col;
    assert 0 <= i < cols * rows by {
      MulMono(0, row, cols);
      MulMono(row + 1, rows, cols);
      assert (row + 1) * cols == i - col + cols;
      assert rows * cols == cols * rows;
    }
    index := i;
    SubImageOfValidIndex(a, index);
    DivModUnique(i, row, col, cols);
  }

  /** The sizes handed to the constructor are the sizes it reports. */
  lemma NewAtlasReportsTileSize(image: Image, tileSizeX: int, tileSizeY: int)
    ensures GetTileSize(NewTextureAtlas(image, tileSizeX, tileSizeY)) == Point(tileSizeX, tileSizeY)
    ensures GetAtlasSize(NewTextureAtlas(image, tileSizeX, tileSizeY)) == Point(image.width, image.height)
  {
  }

  /** A 256 by 256 image of 16 by 16 tiles has 16 by 16 cells, and tile 17
      sits at column 1, row 1. */
  lemma Example256Atlas()
    ensures GetCellCount(NewTextureAtlas(Image(256, 256), 16, 16)) == Point(16, 16)
    ensures ExtractSubImageFromAtlas(17, NewTextureAtlas(Image(256, 256), 16, 16))
      == Rect(Point(16, 16), Point(32, 32))
  {
    var a := NewTextureAtlas(Image(256, 256), 16, 16);
    assert TruncDiv(256, 16) == 16;
    assert Cols(a) == 16 && Rows(a) == 16;
    assert ValidIndex(a, 17);
    SubImageOfValidIndex(a, 17);
    assert ExtractSubImageFromAtlas(17, a).min == Point(16, 16);
  }
}

=== FILE: bmpfont.dfy ===
/** A bitmap font: an atlas of glyph tiles plus a table from rune to tile
    index, built from a declarative description.

    The table is built in layers. Capitals take 26 slots from the index of
    'A'. Digits follow the capitals unless an explicit index of '0' is
    given, and an explicit index of '1' switches to the order '1'..'9','0'
    and overrides both. Lowercase letters appear only when the index of 'a'
    is given. Finally every chain of special characters is written in
    order, each overwriting whatever an earlier layer or chain put there.
    Every stored index is truncated to 16 bits. */
module BitmapFont {
  import opened GoInt
  import opened Geometry
  import opened Atlas

  /** A Go `rune`: a signed 32-bit code. */
  type Rune = Int32

  type FontMap = map<Rune, Uint16>

  datatype SpecialCharacterChain = SpecialCharacterChain(startIndex: int, characters: seq<Rune>)

  datatype FontAtlasDescription = FontAtlasDescription(
    indexOfCapitalA: int,
    indexOfSmallA: Option<int>,
    indexOfZero: Option<int>,
    indexOfOne: Option<int>,
    chains: seq<SpecialCharacterChain>)

  datatype BitmapFont = BitmapFont(atlas: TextureAtlas, fontMap: FontMap)

  /** A font can draw once it has an atlas image and a non-empty table;
      Go's nil map and empty map both have length zero. */
  predicate IsLoaded(f: BitmapFont)
  {
    f.atlas.image.Some? && |f.fontMap| > 0
  }

  /** `r` is one of the `n` consecutive runes from `lo`. */
  predicate InBlock(r: Rune, lo: int, n: int)
  {
    lo <= r < lo + n
  }

  const CapitalA: Rune := 65
  const DigitZero: Rune := 48
  const DigitOne: Rune := 49
  const SmallA: Rune := 97

  function CapitalLetters(indexOfCapitalA: int): FontMap
  {
    map r: Rune | InBlock(r, CapitalA, 26) :: Uint16Of(indexOfCapitalA + (r - CapitalA))
  }

  /** The digit layer: the one-based scheme when `IndexOfOne` is set,
      otherwise ten slots from `IndexOfZero`, which defaults to the slot
      after 'Z'. */
  function Digits(desc: FontAtlasDescription): FontMap
  {
    if desc.indexOfOne.Some? then
      var one := desc.indexOfOne.value;
      (map r: Rune | InBlock(r, DigitOne, 9) :: Uint16Of(one + (r - DigitOne)))
        [DigitZero := Uint16Of(one + 9)]
    else
      var zero := if desc.indexOfZero.Some? then desc.indexOfZero.value
                  else desc.indexOfCapitalA + 26;
      map r: Rune | InBlock(r, DigitZero, 10) :: Uint16Of(zero + (r - DigitZero))
  }

  function SmallLetters(desc: FontAtlasDescription): FontMap
  {
    if desc.indexOfSmallA.Some? then
      map r: Rune | InBlock(r, SmallA, 26) :: Uint16Of(desc.indexOfSmallA.value + (r - SmallA))
    else
      map[]
  }

  /** The table before any chain is applied; the three layers use disjoint
      keys, so their union is the order-independent result of writing them
      one after another. */
  function BaseIndex(desc: FontAtlasDescription): FontMap
  {
    CapitalLetters(desc.indexOfCapitalA) + Digits(desc) + SmallLetters(desc)
  }

  /** Writes `characters[k]` to slot `start + k`, first to last. */
  function ApplyChain(m: FontMap, start: int, characters: seq<Rune>): FontMap
    decreases |characters|
  {
    if characters == [] then m
    else ApplyChain(m[characters[0] := Uint16Of(start)], start + 1, characters[1..])
  }

  function ApplyChains(m: FontMap, chains: seq<SpecialCharacterChain>): FontMap
    decreases |chains|
  {
    if chains == [] then m
    else ApplyChains(ApplyChain(m, chains[0].startIndex, chains[0].characters), chains[1..])
  }

  /** Every rune some chain mentions. */
  function ChainKeys(chains: seq<SpecialCharacterChain>): set<Rune>
    decreases |chains|
  {
    if chains == [] then {}
    else (set c | c in chains[0].characters) + ChainKeys(chains[1..])
  }

  /** The runes the layers give a slot, before the chains. */
  function BaseKeys(desc: FontAtlasDescription): set<Rune>
  {
    (set r: Rune | InBlock(r, CapitalA, 26)) +
    (set r: Rune | InBlock(r, DigitZero, 10)) +
    (if desc.indexOfSmallA.Some? then set r: Rune | InBlock(r, SmallA, 26) else {})
  }

  /** The rune table a description yields: the layers, then the chains. */
  function NewFontIndexFromDescription(desc: FontAtlasDescription): (r: FontMap)
    ensures r.Keys == BaseKeys(desc) + ChainKeys(desc.chains)
  {
    var base := BaseIndex(desc);
    assert base.Keys == BaseKeys(desc);
    ApplyChainsKeys(base, desc.chains);
    ApplyChains(base, desc.chains)
  }

  /** The table holds exactly the layer keys plus the chain keys, so at
      least the 26 capitals and the 10 digits. */
  lemma FontIndexKeys(desc: FontAtlasDescription)
    ensures NewFontIndexFromDescription(desc).Keys == BaseKeys(desc) + ChainKeys(desc.chains)
    ensures |NewFontIndexFromDescription(desc)| >= 36
  {
    AtLeastThirtySixKeys(NewFontIndexFromDescription(desc).Keys);
  }

  lemma AtLeastThirtySixKeys(keys: set<Rune>)
    requires (set r: Rune | InBlock(r, CapitalA, 26)) + (set r: Rune | InBlock(r, DigitZero, 10)) <= keys
    ensures |keys| >= 36
  {
    var letters := set r: Rune | InBlock(r, CapitalA, 26);
    var digits := set r: Rune | InBlock(r, DigitZero, 10);
    RangeSize(CapitalA, 26);
    RangeSize(DigitZero, 10);
    assert letters !! digits;
    assert |letters + digits| == 36;
    assert letters + digits <= keys;
    SubsetSize(letters + digits, keys);
  }

  lemma SubsetSize<T>(a: set<T>, b: set<T>)
    requires a <= b
    ensures |a| <= |b|
  {
    assert b == a + (b - a);
  }

  lemma {:induction false} RangeSize(lo: Rune, n: nat)
    requires lo as int + n <= TwoTo31
    ensures |set r: Rune | InBlock(r, lo, n)| == n
  {
    if n > 0 {
      RangeSize(lo, n - 1);
      var m: nat := n - 1;
      var top: Rune := lo + m;
      assert (set r: Rune | InBlock(r, lo, n)) == (set r: Rune | InBlock(r, lo, m)) + {top};
    }
  }

  /** A chain adds its characters as keys and removes none. */
  lemma {:induction false} ApplyChainKeys(m: FontMap, start: int, characters: seq<Rune>)
    ensures ApplyChain(m, start, characters).Keys == m.Keys + (set c | c in characters)
    decreases |characters|
  {
    if characters != [] {
      ApplyChainKeys(m[characters[0] := Uint16Of(start)], start + 1, characters[1..]);
      assert (set c | c in characters) == {characters[0]} + (set c | c in characters[1..]);
    }
  }

  lemma {:induction false} ApplyChainsKeys(m: FontMap, chains: seq<SpecialCharacterChain>)
    ensures ApplyChains(m, chains).Keys == m.Keys + ChainKeys(chains)
    decreases |chains|
  {
    if chains != [] {
      ApplyChainKeys(m, chains[0].startIndex, chains[0].characters);
      ApplyChainsKeys(ApplyChain(m, chains[0].startIndex, chains[0].characters), chains[1..]);
    }
  }

  /** A rune no chain mentions keeps the value the layers gave it. */
  lemma {:induction false} ApplyChainMisses(m: FontMap, start: int, characters: seq<Rune>, c: Rune)
    requires c !in characters
    ensures c in ApplyChain(m, start, characters) <==> c in m
    ensures c in m ==> ApplyChain(m, start, characters)[c] == m[c]
    decreases |characters|
  {
    if characters != [] {
      ApplyChainMisses(m[characters[0] := Uint16Of(start)], start + 1, characters[1..], c);
    }
  }

  lemma {:induction false} ApplyChainsMiss(m: FontMap, chains: seq<SpecialCharacterChain>, c: Rune)
    requires c !in ChainKeys(chains)
    ensures c in ApplyChains(m, chains) <==> c in m
    ensures c in m ==> ApplyChains(m, chains)[c] == m[c]
    decreases |chains|
  {
    if chains != [] {
      ApplyChainMisses(m, chains[0].startIndex, chains[0].characters, c);
      ApplyChainsMiss(ApplyChain(m, chains[0].startIndex, chains[0].characters), chains[1..], c);
    }
  }

  /** Within a chain the last occurrence of a character wins: the `k`-th
      character, if it does not recur later in the chain, ends at slot
      `start + k`. */
  lemma {:induction false} ApplyChainHit(m: FontMap, start: int, characters: seq<Rune>, k: nat)
    requires k < |characters|
    requires characters[k] !in characters[k + 1..]
    ensures characters[k] in ApplyChain(m, start, characters)
    ensures ApplyChain(m, start, characters)[characters[k]] == Uint16Of(start + k)
    decreases |characters|
  {
    var m' := m[characters[0] := Uint16Of(start)];
    if k == 0 {
      ApplyChainMisses(m', start + 1, characters[1..], characters[0]);
    } else {
      assert characters[1..][k - 1..] == characters[k..];
      assert characters[1..][k - 1 + 1..] == characters[k + 1..];
      ApplyChainHit(m', start + 1, characters[1..], k - 1);
    }
  }

  /** Across chains the last writer wins: character `k` of chain `j`, if it
      recurs neither later in that chain nor in any later chain, ends at
      slot `startIndex + k` of chain `j`. */
  lemma {:induction false} ApplyChainsHit(m: FontMap, chains: seq<SpecialCharacterChain>, j: nat, k: nat)
    requires j < |chains| && k < |chains[j].characters|
    requires chains[j].characters[k] !in chains[j].characters[k + 1..]
    requires chains[j].characters[k] !in ChainKeys(chains[j + 1..])
    ensures chains[j].characters[k] in ApplyChains(m, chains)
    ensures ApplyChains(m, chains)[chains[j].characters[k]] == Uint16Of(chains[j].startIndex + k)
    decreases |chains|
  {
    var c := chains[j].characters[k];
    var m' := ApplyChain(m, chains[0].startIndex, chains[0].characters);
    if j == 0 {
      ApplyChainHit(m, chains[0].startIndex, chains[0].characters, k);
      assert chains[1..] == chains[j + 1..];
      ApplyChainsMiss(m', chains[1..], c);
    } else {
      assert chains[1..][j - 1] == chains[j];
      assert chains[1..][j - 1 + 1..] == chains[j + 1..];
      ApplyChainsHit(m', chains[1..], j - 1, k);
    }
  }

  /** The capital `'A' + i` sits at `IndexOfCapitalA + i` (16-bit) unless a
      chain claims it. */
  lemma CapitalEntries(desc: FontAtlasDescription, i: int)
    requires 0 <= i < 26
    requires CapitalA + i !in ChainKeys(desc.chains)
    ensures CapitalA + i in NewFontIndexFromDescription(desc)
    ensures NewFontIndexFromDescription(desc)[CapitalA + i] == Uint16Of(desc.indexOfCapitalA + i)
  {
    var base := BaseIndex(desc);
    var c: Rune := CapitalA + i;
    assert InBlock(c, CapitalA, 26);
    assert c in CapitalLetters(desc.indexOfCapitalA);
    assert c !in Digits(desc) && c !in SmallLetters(desc);
    assert base[c] == Uint16Of(desc.indexOfCapitalA + i);
    ApplyChainsMiss(base, desc.chains, c);
    assert NewFontIndexFromDescription(desc) == ApplyChains(base, desc.chains);
  }

  /** The digit `'0' + d` under each of the three digit schemes, unless a
      chain claims it: one-based when `IndexOfOne` is set (then
      `IndexOfZero` is ignored), zero-based from `IndexOfZero` when only it
      is set, and right after 'Z' when neither is. */
  lemma DigitEntries(desc: FontAtlasDescription, d: int)
    requires 0 <= d < 10
    requires DigitZero + d !in ChainKeys(desc.chains)
    ensures DigitZero + d in NewFontIndexFromDescription(desc)
    ensures desc.indexOfOne.Some? ==>
      NewFontIndexFromDescription(desc)[DigitZero + d] ==
        Uint16Of(if d == 0 then desc.indexOfOne.value + 9 else desc.indexOfOne.value + d - 1)
    ensures desc.indexOfOne.None? && desc.indexOfZero.Some? ==>
      NewFontIndexFromDescription(desc)[DigitZero + d] == Uint16Of(desc.indexOfZero.value + d)
    ensures desc.indexOfOne.None? && desc.indexOfZero.None? ==>
      NewFontIndexFromDescription(desc)[DigitZero + d] == Uint16Of(desc.indexOfCapitalA + 26 + d)
  {
    var base := BaseIndex(desc);
    var c: Rune := DigitZero + d;
    assert !InBlock(c, CapitalA, 26) && !InBlock(c, SmallA, 26);
    assert c !in CapitalLetters(desc.indexOfCapitalA) && c !in SmallLetters(desc);
    if desc.indexOfOne.Some? {
      if d != 0 {
        assert InBlock(c, DigitOne, 9);
      }
    } else {
      assert InBlock(c, DigitZero, 10);
    }
    assert c in Digits(desc) && base[c] == Digits(desc)[c];
    ApplyChainsMiss(base, desc.chains, c);
    assert NewFontIndexFromDescription(desc) == ApplyChains(base, desc.chains);
  }

  /** Lowercase `'a' + i` has a slot exactly when `IndexOfSmallA` is set or a
      chain mentions it; from the layer it sits at `IndexOfSmallA + i`. */
  lemma SmallLetterEntries(desc: FontAtlasDescription, i: int)
    requires 0 <= i < 26
    ensures SmallA + i in NewFontIndexFromDescription(desc) <==>
      desc.indexOfSmallA.Some? || SmallA + i in ChainKeys(desc.chains)
    ensures desc.indexOfSmallA.Some? && SmallA + i !in ChainKeys(desc.chains) ==>
      NewFontIndexFromDescription(desc)[SmallA + i] == Uint16Of(desc.indexOfSmallA.value + i)
  {
    var c: Rune := SmallA + i;
    assert InBlock(c, SmallA, 26);
    assert c in BaseKeys(desc) <==> desc.indexOfSmallA.Some?;
    FontIndexKeys(desc);
    if c !in ChainKeys(desc.chains) && desc.indexOfSmallA.Some? {
      SmallLetterFromLayer(desc, c);
    }
  }

  lemma SmallLetterFromLayer(desc: FontAtlasDescription, c: Rune)
    requires InBlock(c, SmallA, 26) && desc.indexOfSmallA.Some?
    requires c !in ChainKeys(desc.chains)
    ensures c in NewFontIndexFromDescription(desc)
    ensures NewFontIndexFromDescription(desc)[c] == Uint16Of(desc.indexOfSmallA.value + (c - SmallA))
  {
    var base := BaseIndex(desc);
    assert !InBlock(c, CapitalA, 26) && !InBlock(c, DigitZero, 10);
    assert c !in CapitalLetters(desc.indexOfCapitalA) && c !in Digits(desc);
    assert base[c] == SmallLetters(desc)[c];
    ApplyChainsMiss(base, desc.chains, c);
  }

  /** Chains are applied last, in order: the last place a character occurs
      in the chain list decides its slot, overriding every layer. */
  lemma ChainEntries(desc: FontAtlasDescription, j: nat, k: nat)
    requires j < |desc.chains| && k < |desc.chains[j].characters|
    requires desc.chains[j].characters[k] !in desc.chains[j].characters[k + 1..]
    requires desc.chains[j].characters[k] !in ChainKeys(desc.chains[j + 1..])
    ensures desc.chains[j].characters[k] in NewFontIndexFromDescription(desc)
    ensures NewFontIndexFromDescription(desc)[desc.chains[j].characters[k]] ==
      Uint16Of(desc.chains[j].startIndex + k)
  {
    ApplyChainsHit(BaseIndex(desc), desc.chains, j, k);
    assert NewFontIndexFromDescription(desc) == ApplyChains(BaseIndex(desc), desc.chains);
  }

  /** A font built from any description has a non-empty table, so whether
      it is loaded depends on the atlas image alone. */
  lemma BuiltFontLoadedIffAtlas(atlas: TextureAtlas, desc: FontAtlasDescription)
    ensures IsLoaded(BitmapFont(atlas, NewFontIndexFromDescription(desc))) <==> atlas.image.Some?
  {
    FontIndexKeys(desc);
  }
}

=== FILE: colorcodes.dfy ===
/** Colour-coded text: a string such as `Hello [:red]World [:24,54,222]!`
    is cut at its colour codes `[:name]` into text runs, each drawn in the
    colour of the code before it (white before the first code), trimmed of
    surrounding white space and laid out left to right.

    Go's regular expression `\[:([\w,]+)\]` is modelled by hand: a code is
    `[:`, a non-empty run of ASCII word characters and commas, then `]`.
    Because `]` is not one of the run's characters, the greedy run must stop
    exactly at the closing bracket, so at any position there is at most one
    code. Text widths and the space advance come from the TrueType font,
    which is not part of this model; they are parameters here, in whole
    pixels. */
module ColorCodes {
  import opened GoInt
  import opened Geometry

  // ---------------------------------------------------------------------
  // Scanning for colour codes
  // ---------------------------------------------------------------------

  /** RE2's `\w`: ASCII letters, digits and underscore. */
  predicate IsWordChar(c: char)
  {
    ('0' <= c <= '9') || ('A' <= c <= 'Z') || ('a' <= c <= 'z') || c == '_'
  }

  /** The characters allowed inside a code, `[\w,]`. */
  predicate IsCodeChar(c: char)
  {
    IsWordChar(c) || c == ','
  }

  /** `[:name]` starts at position `p` of `s`. */
  predicate IsCode(s: string, p: nat, name: string)
  {
    && |name| > 0
    && p + |name| + 3 <= |s|
    && s[p] == '[' && s[p + 1] == ':'
    && (forall k | 0 <= k < |name| :: IsCodeChar(name[k]) && s[p + 2 + k] == name[k])
    && s[p + 2 + |name|] == ']'
  }

  /** The text of a code is `[:`, its name and `]`. */
  lemma CodeText(s: string, p: nat, name: string)
    requires IsCode(s, p, name)
    ensures s[p..p + |name| + 3] == "[:" + name + "]"
  {
    var code := s[p..p + |name| + 3];
    forall k | 0 <= k < |name| + 3
      ensures code[k] == ("[:" + name + "]")[k]
    {
      if 2 <= k < |name| + 2 {
        assert s[p + 2 + (k - 2)] == name[k - 2];
      }
    }
  }

  /** The length of the run of code characters starting at `i`. */
  function CodeRun(s: string, i: nat): (n: nat)
    requires i <= |s|
    ensures i + n <= |s|
    ensures forall k | i <= k < i + n :: IsCodeChar(s[k])
    ensures i + n == |s| || !IsCodeChar(s[i + n])
    decreases |s| - i
  {
    if i < |s| && IsCodeChar(s[i]) then 1 + CodeRun(s, i + 1) else 0
  }

  /** The name of the code starting at `p`, if one does. */
  function MatchAt(s: string, p: nat): (r: Option<string>)
    requires p <= |s|
    ensures r.Some? ==> IsCode(s, p, r.value)
  {
    if p + 2 <= |s| && s[p] == '[' && s[p + 1] == ':' then
      var n := CodeRun(s, p + 2);
      if n > 0 && p + 2 + n < |s| && s[p + 2 + n] == ']' then
        Some(s[p + 2..p + 2 + n])
      else None
    else None
  }

  /** `MatchAt` finds every code: whenever `[:name]` starts at `p`, that is
      the name it reports. */
  lemma MatchAtComplete(s: string, p: nat, name: string)
    requires IsCode(s, p, name)
    ensures MatchAt(s, p) == Some(name)
  {
    var n := |name|;
    forall k | p + 2 <= k < p + 2 + n
      ensures IsCodeChar(s[k])
    {
      assert s[p + 2 + (k - p - 2)] == name[k - p - 2];
    }
    RunOfKnownLength(s, p + 2, n);
    assert s[p + 2..p + 2 + n] == name;
  }

  /** A run of code characters followed by a non-code character has
      exactly that length. */
  lemma {:induction false} RunOfKnownLength(s: string, i: nat, n: nat)
    requires i + n < |s|
    requires forall k | i <= k < i + n :: IsCodeChar(s[k])
    requires !IsCodeChar(s[i + n])
    ensures CodeRun(s, i) == n
    decreases n
  {
    if n > 0 {
      RunOfKnownLength(s, i + 1, n - 1);
    }
  }

  /** One code found by the scan: it starts at `start` and reads
      `[:name]`. */
  datatype Match = Match(start: nat, name: string)
  {
    function End(): nat { start + |name| + 3 }
  }

  /** `ms` is a sequence of codes in `s` at or after `from`, in order and
      without overlap. */
  predicate Chained(s: string, ms: seq<Match>, from: nat)
    decreases |ms|
  {
    && from <= |s|
    && (|ms| > 0 ==>
         && from <= ms[0].start
         && IsCode(s, ms[0].start, ms[0].name)
         && Chained(s, ms[1..], ms[0].End()))
  }

  /** No code starts in a gap between the codes of `ms`, nor after the
      last one. */
  predicate NoCodeBetween(s: string, ms: seq<Match>, from: nat)
    requires Chained(s, ms, from)
    decreases |ms|
  {
    if |ms| == 0 then
      forall q | from <= q <= |s| :: MatchAt(s, q).None?
    else
      && (forall q | from <= q < ms[0].start :: MatchAt(s, q).None?)
      && NoCodeBetween(s, ms[1..], ms[0].End())
  }

  /** `ms` is the leftmost, non-overlapping sequence of codes in `s` from
      position `from` on: each match is a real code, no code starts in the
      gap before it, the next search resumes where it ends, and no code
      starts after the last one. */
  predicate Scanned(s: string, ms: seq<Match>, from: nat)
  {
    Chained(s, ms, from) && NoCodeBetween(s, ms, from)
  }

  /** `FindAllStringSubmatch(s, -1)` from position `from`: test each position
      in turn and, after a match, resume at its end. */
  function FindAll(s: string, from: nat): (r: seq<Match>)
    requires from <= |s|
    ensures Chained(s, r, from)
    decreases |s| - from
  {
    if from == |s| then []
    else
      match MatchAt(s, from)
      case Some(name) =>
        var rest := FindAll(s, from + |name| + 3);
        ConsTail(Match(from, name), rest);
        [Match(from, name)] + rest
      case None => FindAll(s, from + 1)
  }

  /** The scan finds the leftmost codes and misses none. */
  lemma {:induction false} FindAllScanned(s: string, from: nat)
    requires from <= |s|
    ensures Scanned(s, FindAll(s, from), from)
    decreases |s| - from
  {
    if from < |s| {
      match MatchAt(s, from)
      case Some(name) =>
        var m := Match(from, name);
        var rest := FindAll(s, m.End());
        FindAllScanned(s, m.End());
        FindAllAtCode(s, from, name);
        ScannedCons(s, m, rest);
      case None =>
        FindAllScanned(s, from + 1);
        FindAllNoCode(s, from);
        ScannedFromEarlier(s, FindAll(s, from + 1), from);
    }
  }

  /** A code at `from` followed by a scan from its end is a scan from
      `from`. */
  lemma ScannedCons(s: string, m: Match, rest: seq<Match>)
    requires IsCode(s, m.start, m.name) && Scanned(s, rest, m.End())
    ensures Scanned(s, [m] + rest, m.start)
  {
    ConsTail(m, rest);
  }

  /** Dropping the head of a cons gives back its tail. */
  lemma ConsTail<T>(x: T, rest: seq<T>)
    ensures ([x] + rest)[1..] == rest
  {
    assert ([x] + rest)[1..] == rest;
  }

  /** A non-empty sequence is its head followed by its tail. */
  lemma HeadTail<T>(s: seq<T>)
    requires |s| > 0
    ensures s == [s[0]] + s[1..]
  {
    assert s == [s[0]] + s[1..];
  }

  /** A scan from the next position that has no code at `from` is a scan
      from `from`. */
  lemma ScannedFromEarlier(s: string, ms: seq<Match>, from: nat)
    requires from < |s| && MatchAt(s, from).None?
    requires Scanned(s, ms, from + 1)
    ensures Scanned(s, ms, from)
  {
  }

  /** The scan is determined: the only leftmost non-overlapping sequence of
      codes is the one `FindAll` returns. */
  lemma {:induction false} ScannedIsFindAll(s: string, ms: seq<Match>, from: nat)
    requires Scanned(s, ms, from)
    ensures ms == FindAll(s, from)
    decreases |s| - from
  {
    if from == |s| {
      ScannedAtEnd(s, ms, from);
    } else if |ms| > 0 && ms[0].start == from {
      ScannedHead(s, ms, from);
      ScannedIsFindAll(s, ms[1..], ms[0].End());
      HeadTail(ms);
    } else {
      ScannedSkip(s, ms, from);
      ScannedIsFindAll(s, ms, from + 1);
    }
  }

  /** At the end of the string there is nothing left to find. */
  lemma ScannedAtEnd(s: string, ms: seq<Match>, from: nat)
    requires Scanned(s, ms, from) && from == |s|
    ensures ms == [] && FindAll(s, from) == []
  {
  }

  /** A scan whose first code starts at `from` takes the code the scanner
      finds there and goes on after it. */
  lemma ScannedHead(s: string, ms: seq<Match>, from: nat)
    requires Scanned(s, ms, from) && from < |s|
    requires |ms| > 0 && ms[0].start == from
    ensures Scanned(s, ms[1..], ms[0].End())
    ensures FindAll(s, from) == [ms[0]] + FindAll(s, ms[0].End())
  {
    FindAllAtCode(s, from, ms[0].name);
  }

  /** Where a code starts, the scan takes it and resumes after it. */
  lemma FindAllAtCode(s: string, from: nat, name: string)
    requires from < |s| && IsCode(s, from, name)
    ensures FindAll(s, from) == [Match(from, name)] + FindAll(s, Match(from, name).End())
  {
    MatchAtComplete(s, from, name);
  }

  /** Where no code starts, the scan moves on by one position. */
  lemma FindAllNoCode(s: string, from: nat)
    requires from < |s| && MatchAt(s, from).None?
    ensures FindAll(s, from) == FindAll(s, from + 1)
  {
  }

  /** A scan whose first code starts later finds no code at `from` and is a
      scan from the next position. */
  lemma ScannedSkip(s: string, ms: seq<Match>, from: nat)
    requires Scanned(s, ms, from) && from < |s|
    requires !(|ms| > 0 && ms[0].start == from)
    ensures Scanned(s, ms, from + 1)
    ensures FindAll(s, from) == FindAll(s, from + 1)
  {
    assert MatchAt(s, from).None?;
  }

  /** `Regexp.Split(s, -1)`: the text between the codes, one piece more
      than there are codes. An empty string gives one empty piece. */
  function Pieces(s: string, ms: seq<Match>, beg: nat): (r: seq<string>)
    requires Chained(s, ms, beg)
    ensures |r| == |ms| + 1
    decreases |ms|
  {
    if |ms| == 0 then [s[beg..]]
    else [s[beg..ms[0].start]] + Pieces(s, ms[1..], ms[0].End())
  }

  /** The pieces with the codes put back between them. */
  function Rejoin(pieces: seq<string>, ms: seq<Match>): string
    requires |pieces| == |ms| + 1
    decreases |ms|
  {
    if |ms| == 0 then pieces[0]
    else pieces[0] + "[:" + ms[0].name + "]" + Rejoin(pieces[1..], ms[1..])
  }

  /** Splitting loses nothing: putting the codes back between the pieces
      gives the string back. */
  lemma {:induction false} SplitRejoin(s: string, ms: seq<Match>, beg: nat)
    requires Chained(s, ms, beg)
    ensures Rejoin(Pieces(s, ms, beg), ms) == s[beg..]
    decreases |ms|
  {
    if |ms| > 0 {
      var m := ms[0];
      var p := Pieces(s, ms, beg);
      SplitRejoin(s, ms[1..], m.End());
      assert p[1..] == Pieces(s, ms[1..], m.End());
      var code := s[m.start..m.End()];
      CodeText(s, m.start, m.name);
      var tail := Rejoin(p[1..], ms[1..]);
      assert Rejoin(p, ms) == p[0] + "[:" + m.name + "]" + tail;
      assert Rejoin(p, ms) == s[beg..m.start] + code + s[m.End()..];
      SliceThree(s, beg, m.start, m.End());
    }
  }

  /** A suffix is its three consecutive slices put together. */
  lemma SliceThree(s: string, a: nat, b: nat, c: nat)
    requires a <= b <= c <= |s|
    ensures s[a..] == s[a..b] + s[b..c] + s[c..]
  {
    assert s[a..] == s[a..b] + s[b..];
    assert s[b..] == s[b..c] + s[c..];
  }

  /** The capture group of each code, in order. */
  function Names(ms: seq<Match>): (r: seq<string>)
    ensures |r| == |ms|
    ensures forall k | 0 <= k < |ms| :: r[k] == ms[k].name
  {
    seq(|ms|, k requires 0 <= k < |ms| => ms[k].name)
  }

  // ---------------------------------------------------------------------
  // White space
  // ---------------------------------------------------------------------

  /** Go's `unicode.IsSpace`. */
  predicate IsSpace(c: char)
  {
    || c == '\t' || c == '\n' || c == '\U{000B}' || c == '\U{000C}' || c == '\r' || c == ' '
    || c == '\U{0085}' || c == '\U{00A0}' || c == '\U{1680}'
    || ('\U{2000}' <= c <= '\U{200A}')
    || c == '\U{2028}' || c == '\U{2029}' || c == '\U{202F}' || c == '\U{205F}' || c == '\U{3000}'
  }

  predicate AllSpace(s: string)
  {
    forall k | 0 <= k < |s| :: IsSpace(s[k])
  }

  /** `strings.TrimLeft` of white space. */
  function TrimLeft(s: string): string
  {
    if |s| > 0 && IsSpace(s[0]) then TrimLeft(s[1..]) else s
  }

  /** `strings.TrimRight` of white space. */
  function TrimRight(s: string): string
  {
    if |s| > 0 && IsSpace(s[|s| - 1]) then TrimRight(s[..|s| - 1]) else s
  }

  /** `TrimLeft` drops a white-space prefix and stops at the first other
      character. */
  lemma {:induction false} TrimLeftDropsSpace(s: string)
    ensures var r := TrimLeft(s);
      && |r| <= |s| && r == s[|s| - |r|..]
      && (|r| > 0 ==> !IsSpace(r[0]))
      && AllSpace(s[..|s| - |r|])
  {
    if |s| > 0 && IsSpace(s[0]) {
      TrimLeftDropsSpace(s[1..]);
      var r := TrimLeft(s[1..]);
      var dropped, restDropped := s[..|s| - |r|], s[1..][..|s| - 1 - |r|];
      assert forall k | 1 <= k < |dropped| :: dropped[k] == restDropped[k - 1];
    } else {
      assert s[..0] == [];
    }
  }

  /** `TrimRight` drops a white-space suffix and stops at the last other
      character. */
  lemma {:induction false} TrimRightDropsSpace(s: string)
    ensures var r := TrimRight(s);
      && |r| <= |s| && r == s[..|r|]
      && (|r| > 0 ==> !IsSpace(r[|r| - 1]))
      && AllSpace(s[|r|..])
  {
    if |s| > 0 && IsSpace(s[|s| - 1]) {
      var init := s[..|s| - 1];
      TrimRightDropsSpace(init);
      var r := TrimRight(init);
      var dropped, initDropped := s[|r|..], init[|r|..];
      assert forall k | 0 <= k < |initDropped| :: dropped[k] == initDropped[k];
    } else {
      assert s[|s|..] == [];
    }
  }

  /** `strings.TrimSpace`: white space removed from both ends. */
  function TrimSpace(s: string): string
  {
    TrimRight(TrimLeft(s))
  }

  /** Non-empty, with no white space at either end. */
  predicate Trimmed(t: string)
  {
    |t| > 0 && !IsSpace(t[0]) && !IsSpace(t[|t| - 1])
  }

  /** What is left after trimming has no white space at either end. */
  lemma TrimSpaceTrimmed(s: string)
    ensures TrimSpace(s) != [] ==> Trimmed(TrimSpace(s))
  {
    var l := TrimLeft(s);
    var r := TrimRight(l);
    TrimLeftDropsSpace(s);
    TrimRightDropsSpace(l);
    if |r| > 0 {
      assert r[0] == l[0];
    }
  }

  /** Trimming removes only white space, and only from the two ends; it
      leaves nothing exactly when the string is all white space. */
  lemma TrimSpaceRemovesEnds(s: string) returns (a: nat, b: nat)
    ensures a <= b <= |s|
    ensures TrimSpace(s) == s[a..b]
    ensures AllSpace(s[..a]) && AllSpace(s[b..])
    ensures |TrimSpace(s)| == 0 <==> AllSpace(s)
  {
    var l := TrimLeft(s);
    TrimLeftDropsSpace(s);
    TrimRightDropsSpace(l);
    a := |s| - |l|;
    b := a + |TrimRight(l)|;
    assert s[b..] == l[|TrimRight(l)|..];
    TrimSpaceTrimmed(s);
    if |TrimSpace(s)| > 0 {
      assert s[a] == TrimSpace(s)[0];
    } else {
      assert l[0..] == l;
      assert s[..a] == s;
    }
  }

  /** Trimming twice trims nothing more. */
  lemma TrimSpaceIdempotent(s: string)
    ensures TrimSpace(TrimSpace(s)) == TrimSpace(s)
  {
    var t := TrimSpace(s);
    TrimSpaceTrimmed(s);
    if |t| > 0 {
      assert TrimLeft(t) == t;
      assert TrimRight(t) == t;
    }
  }

  // ---------------------------------------------------------------------
  // Numbers: strings.Split on commas and strconv.Atoi
  // ---------------------------------------------------------------------

  /** `strings.Split(s, ",")`: the comma-free fields, one more than there
      are commas. */
  function SplitComma(s: string): (r: seq<string>)
    ensures |r| >= 1
    ensures forall k | 0 <= k < |r| :: ',' !in r[k]
    decreases |s|
  {
    if |s| == 0 then [""]
    else
      var rest := SplitComma(s[1..]);
      if s[0] == ',' then [""] + rest
      else [[s[0]] + rest[0]] + rest[1..]
  }

  /** The fields joined back with commas. */
  function JoinComma(fields: seq<string>): string
    requires |fields| >= 1
    decreases |fields|
  {
    if |fields| == 1 then fields[0] else fields[0] + "," + JoinComma(fields[1..])
  }

  /** Splitting on commas loses nothing. */
  lemma {:induction false} SplitCommaJoin(s: string)
    ensures JoinComma(SplitComma(s)) == s
    decreases |s|
  {
    if |s| > 0 {
      var rest := SplitComma(s[1..]);
      SplitCommaJoin(s[1..]);
      if s[0] == ',' {
        assert SplitComma(s)[1..] == rest;
        assert s == "" + "," + s[1..];
      } else if |rest| == 1 {
        assert s == [s[0]] + s[1..];
      } else {
        assert SplitComma(s)[1..] == rest[1..];
        assert JoinComma(rest) == rest[0] + "," + JoinComma(rest[1..]);
        assert s == [s[0]] + s[1..];
      }
    }
  }

  /** Comma-free fields joined with commas split back into themselves. */
  lemma {:induction false} JoinCommaSplit(fields: seq<string>)
    requires |fields| >= 1
    requires forall k | 0 <= k < |fields| :: ',' !in fields[k]
    ensures SplitComma(JoinComma(fields)) == fields
    decreases |fields|
  {
    if |fields| == 1 {
      SplitCommaFree(fields[0]);
    } else {
      JoinCommaSplit(fields[1..]);
      SplitCommaPrefix(fields[0], JoinComma(fields[1..]));
      assert fields == [fields[0]] + fields[1..];
    }
  }

  lemma {:induction false} SplitCommaFree(a: string)
    requires ',' !in a
    ensures SplitComma(a) == [a]
    decreases |a|
  {
    if |a| > 0 {
      assert a[0] in a;
      assert forall c | c in a[1..] :: c in a;
      SplitCommaFree(a[1..]);
      assert a == [a[0]] + a[1..];
    }
  }

  lemma {:induction false} SplitCommaPrefix(a: string, t: string)
    requires ',' !in a
    ensures SplitComma(a + "," + t) == [a] + SplitComma(t)
    decreases |a|
  {
    var s := a + "," + t;
    if |a| == 0 {
      assert s[1..] == t;
    } else {
      assert a[0] in a;
      assert forall c | c in a[1..] :: c in a;
      SplitCommaPrefix(a[1..], t);
      assert s[1..] == a[1..] + "," + t;
      assert a == [a[0]] + a[1..];
    }
  }

  const MaxInt64: int := 0x7FFF_FFFF_FFFF_FFFF
  const MaxUint64: int := 0xFFFF_FFFF_FFFF_FFFF
  /** `ParseUint`'s overflow threshold for base 10. */
  const Cutoff: int := MaxUint64 / 10 + 1

  predicate IsDigit(c: char) { '0' <= c <= '9' }

  predicate AllDigits(s: string)
  {
    forall k | 0 <= k < |s| :: IsDigit(s[k])
  }

  function DigitValue(c: char): nat
    requires IsDigit(c)
  {
    (c as int) - ('0' as int)
  }

  /** The outcome of `ParseUint`'s digit loop. */
  datatype UintScan = SyntaxError | RangeError | Value(n: nat)

  /** `ParseUint(s, 10, 64)`'s loop, continuing from the accumulated value
      `n`: a non-digit stops it with a syntax error, and a value beyond 64
      bits stops it with a range error at that digit, whatever follows. */
  function ScanDigits(s: string, n: nat): UintScan
    decreases |s|
  {
    if |s| == 0 then Value(n)
    else if !IsDigit(s[0]) then SyntaxError
    else if n >= Cutoff then RangeError
    else
      var n1 := n * 10 + DigitValue(s[0]);
      if n1 > MaxUint64 then RangeError else ScanDigits(s[1..], n1)
  }

  /** `strconv.Atoi`, errors discarded: an optional sign, then decimal
      digits; a malformed string gives 0 and an out-of-range one the
      nearest 64-bit bound. */
  function Atoi(s: string): (r: int)
    ensures -MaxInt64 - 1 <= r <= MaxInt64
    ensures |s| == 0 || !(IsDigit(s[0]) || s[0] == '+' || s[0] == '-') ==> r == 0
  {
    var neg := |s| > 0 && s[0] == '-';
    var digits := if |s| > 0 && (s[0] == '+' || s[0] == '-') then s[1..] else s;
    if |digits| == 0 then 0
    else
      match ScanDigits(digits, 0)
      case SyntaxError => 0
      case RangeError => if neg then -MaxInt64 - 1 else MaxInt64
      case Value(v) =>
        var w: int := v;
        if neg then (if w > MaxInt64 + 1 then -MaxInt64 - 1 else -w)
        else (if w > MaxInt64 then MaxInt64 else w)
  }

  /** The value of a digit string read left to right, after `n`. */
  function Accumulate(n: nat, s: string): nat
    requires AllDigits(s)
    decreases |s|
  {
    if |s| == 0 then n else Accumulate(n * 10 + DigitValue(s[0]), s[1..])
  }

  function DecimalValue(s: string): nat
    requires AllDigits(s)
  {
    Accumulate(0, s)
  }

  lemma {:induction false} AccumulateAtLeast(n: nat, s: string)
    requires AllDigits(s)
    ensures Accumulate(n, s) >= n
    ensures |s| > 0 ==> Accumulate(n, s) >= n * 10
    decreases |s|
  {
    if |s| > 0 {
      AccumulateAtLeast(n * 10 + DigitValue(s[0]), s[1..]);
    }
  }

  /** On digits the loop computes the decimal value, and fails exactly when
      that value needs more than 64 bits. */
  lemma {:induction false} ScanDigitsValue(s: string, n: nat)
    requires AllDigits(s) && n <= MaxUint64
    ensures ScanDigits(s, n) == if Accumulate(n, s) > MaxUint64 then RangeError else Value(Accumulate(n, s))
    decreases |s|
  {
    if |s| > 0 {
      var n1 := n * 10 + DigitValue(s[0]);
      AccumulateAtLeast(n1, s[1..]);
      if n < Cutoff && n1 <= MaxUint64 {
        ScanDigitsValue(s[1..], n1);
      }
    }
  }

  /** `Atoi` of a digit string is its value, clamped to the largest 64-bit
      integer. */
  lemma AtoiOfDigits(s: string)
    requires |s| > 0 && AllDigits(s)
    ensures Atoi(s) == if DecimalValue(s) > MaxInt64 then MaxInt64 else DecimalValue(s)
  {
    ScanDigitsValue(s, 0);
  }

  function DigitChar(d: nat): (c: char)
    requires d < 10
    ensures IsDigit(c) && DigitValue(c) == d
  {
    ('0' as int + d) as char
  }

  /** The decimal spelling of `n`, as `strconv.Itoa` writes it. */
  function Decimal(n: nat): (r: string)
    ensures |r| > 0 && AllDigits(r)
  {
    if n < 10 then [DigitChar(n)] else Decimal(n / 10) + [DigitChar(n % 10)]
  }

  lemma {:induction false} AccumulateAppend(n: nat, a: string, c: char)
    requires AllDigits(a) && IsDigit(c)
    ensures AllDigits(a + [c])
    ensures Accumulate(n, a + [c]) == Accumulate(n, a) * 10 + DigitValue(c)
    decreases |a|
  {
    if |a| > 0 {
      AccumulateAppend(n * 10 + DigitValue(a[0]), a[1..], c);
      assert (a + [c])[1..] == a[1..] + [c];
    }
  }

  lemma {:induction false} DecimalRoundTrip(n: nat)
    ensures DecimalValue(Decimal(n)) == n
  {
    if n >= 10 {
      var c := DigitChar(n % 10);
      assert Decimal(n) == Decimal(n / 10) + [c];
      DecimalRoundTrip(n / 10);
      AccumulateAppend(0, Decimal(n / 10), c);
      assert Accumulate(0, Decimal(n / 10)) == n / 10;
      assert Accumulate(0, Decimal(n)) == (n / 10) * 10 + n % 10;
    }
  }

  /** Reading back what `Decimal` writes gives the number. */
  lemma AtoiDecimal(n: nat)
    requires n <= MaxInt64
    ensures Atoi(Decimal(n)) == n
  {
    DecimalRoundTrip(n);
    AtoiOfDigits(Decimal(n));
  }

  // ---------------------------------------------------------------------
  // Colours
  // ---------------------------------------------------------------------

  /** `toColor` can read the name without a Go panic. A name with a comma
      is split into fields and the first three are read, so exactly one
      comma (two fields) is the one shape that fails. */
  predicate Decodable(name: string)
  {
    CommaCount(name) != 1
  }

  function CommaCount(s: string): nat
  {
    if |s| == 0 then 0 else (if s[0] == ',' then 1 else 0) + CommaCount(s[1..])
  }

  lemma {:induction false} CommaCountCounts(s: string)
    ensures ',' in s <==> CommaCount(s) > 0
    decreases |s|
  {
    if |s| > 0 {
      CommaCountCounts(s[1..]);
      assert s == [s[0]] + s[1..];
    }
  }

  /** There is one more field than there are commas. */
  lemma {:induction false} FieldCount(s: string)
    ensures |SplitComma(s)| == CommaCount(s) + 1
    decreases |s|
  {
    if |s| > 0 {
      FieldCount(s[1..]);
    }
  }

  /** The colour a code's name stands for: `R,G,B` as three integers cut
      to eight bits, opaque; any other name is looked up by
      `colorFromName`. */
  function NameColor(name: string, colorFromName: string -> Color): (c: Color)
    requires Decodable(name)
    ensures ',' !in name ==> c == colorFromName(name)
    ensures ',' in name ==> c.a == 255
  {
    CommaCountCounts(name);
    if ',' in name then
      FieldCount(name);
      var fields := SplitComma(name);
      RGBA(ByteOf(Atoi(fields[0])), ByteOf(Atoi(fields[1])), ByteOf(Atoi(fields[2])), 255)
    else colorFromName(name)
  }

  /** A numeric code `[:r,g,b]` gives the opaque colour of its three
      numbers, each taken modulo 256. */
  lemma NumericCodeColor(r: nat, g: nat, b: nat, colorFromName: string -> Color)
    requires r <= MaxInt64 && g <= MaxInt64 && b <= MaxInt64
    ensures Decodable(Decimal(r) + "," + Decimal(g) + "," + Decimal(b))
    ensures NameColor(Decimal(r) + "," + Decimal(g) + "," + Decimal(b), colorFromName) ==
      RGBA(ByteOf(r), ByteOf(g), ByteOf(b), 255)
  {
    var name := Decimal(r) + "," + Decimal(g) + "," + Decimal(b);
    var fields := SplitTriple(Decimal(r), Decimal(g), Decimal(b));
    FieldCount(name);
    assert name[|Decimal(r)|] == ',';
    AtoiDecimal(r);
    AtoiDecimal(g);
    AtoiDecimal(b);
  }

  /** Three digit strings joined by commas split back into the three. */
  lemma SplitTriple(x: string, y: string, z: string) returns (fields: seq<string>)
    requires AllDigits(x) && AllDigits(y) && AllDigits(z)
    ensures fields == [x, y, z]
    ensures SplitComma(x + "," + y + "," + z) == fields
  {
    DigitsCommaFree(x);
    DigitsCommaFree(y);
    DigitsCommaFree(z);
    fields := [x, y, z];
    assert JoinComma(fields[1..]) == y + "," + z by {
      assert fields[1..][1..] == [z];
    }
    assert JoinComma(fields) == x + "," + y + "," + z;
    JoinCommaSplit(fields);
  }

  lemma DigitsCommaFree(s: string)
    requires AllDigits(s)
    ensures ',' !in s
  {
  }

  /** `toColor(matches, index)`: white when there are no codes; a named
      code is whatever the resolver makes of the name; a numeric code is
      opaque. */
  function ToColor(codes: seq<string>, index: int, colorFromName: string -> Color): (c: Color)
    requires |codes| > 0 ==> 0 <= index < |codes| && Decodable(codes[index])
    ensures |codes| == 0 ==> c == White
    ensures |codes| > 0 ==> c == NameColor(codes[index], colorFromName)
    ensures |codes| > 0 && ',' !in codes[index] ==> c == colorFromName(codes[index])
    ensures |codes| > 0 && ',' in codes[index] ==> c.a == 255
  {
    if |codes| == 0 then White else NameColor(codes[index], colorFromName)
  }

  /** The code `[:r,g,b]` selected by `toColor` gives the opaque colour of
      its three numbers, each cut to eight bits, whatever the resolver. */
  lemma ToColorNumeric(r: nat, g: nat, b: nat, colorFromName: string -> Color)
    requires r <= MaxInt64 && g <= MaxInt64 && b <= MaxInt64
    ensures Decodable(Decimal(r) + "," + Decimal(g) + "," + Decimal(b))
    ensures ToColor([Decimal(r) + "," + Decimal(g) + "," + Decimal(b)], 0, colorFromName) ==
      RGBA(ByteOf(r), ByteOf(g), ByteOf(b), 255)
  {
    NumericCodeColor(r, g, b, colorFromName);
  }

  // ---------------------------------------------------------------------
  // parseColorCodedText
  // ---------------------------------------------------------------------

  datatype ColoredTextPart = ColoredTextPart(text: string, color: Color, xOffset: int)

  /** The text pieces the parser walks: the split of `s`, without its first
      piece when that is empty (when `s` starts with a code, or is empty). */
  function TextParts(s: string): (r: seq<string>)
    ensures |r| == |FindAll(s, 0)| || |r| == |FindAll(s, 0)| + 1
  {
    var pieces := Pieces(s, FindAll(s, 0), 0);
    if pieces[0] == "" then pieces[1..] else pieces
  }

  /** The colour names the parser pairs with the pieces: the codes' names,
      with the name "white" put in front when there are fewer codes than
      pieces. */
  function CodeNames(s: string): (r: seq<string>)
    ensures |r| == |TextParts(s)|
  {
    var names := Names(FindAll(s, 0));
    if |names| < |TextParts(s)| then ["white"] + names else names
  }

  /** No kept piece is paired with a malformed numeric code (on which
      `toColor` would index past the fields and panic). */
  predicate CodesDecodable(parts: seq<string>, codes: seq<string>, i: nat)
    requires |parts| == |codes|
  {
    forall j | i <= j < |parts| :: TrimSpace(parts[j]) != [] ==> Decodable(codes[j])
  }

  /** The parser's loop from piece `i` at x-offset `offset`: each piece is
      trimmed, empty ones are skipped, and a kept piece `j` takes colour `j`
      (not the number of pieces kept before it) and advances the offset by
      its width plus one space. */
  function Emit(parts: seq<string>, codes: seq<string>, i: nat, offset: int,
                measure: string -> int, advance: int, colorFromName: string -> Color): seq<ColoredTextPart>
    requires |parts| == |codes| && i <= |parts|
    requires CodesDecodable(parts, codes, i)
    decreases |parts| - i
  {
    if i == |parts| then []
    else
      var t := TrimSpace(parts[i]);
      if t == [] then Emit(parts, codes, i + 1, offset, measure, advance, colorFromName)
      else
        var rest := Emit(parts, codes, i + 1, offset + measure(t) + advance, measure, advance, colorFromName);
        [ColoredTextPart(t, ToColor(codes, i, colorFromName), offset)] + rest
  }

  /** `parseColorCodedText`, with the text width and the width of a space
      supplied by the caller. */
  function ParseColorCodedText(s: string, measure: string -> int, advance: int,
                               colorFromName: string -> Color): (r: seq<ColoredTextPart>)
    requires CodesDecodable(TextParts(s), CodeNames(s), 0)
    ensures |r| <= |TextParts(s)|
    ensures forall j | 0 <= j < |r| :: Trimmed(r[j].text)
    ensures SpacedFrom(r, 0, measure, advance)
  {
    EmitShape(TextParts(s), CodeNames(s), 0, 0, measure, advance, colorFromName);
    Emit(TextParts(s), CodeNames(s), 0, 0, measure, advance, colorFromName)
  }

  /** What the loop emits: at most one part per piece, each part's text
      non-empty and trimmed, the first at the starting offset and each
      later one a width and a space after the one before it. */
  lemma {:induction false} EmitShape(parts: seq<string>, codes: seq<string>, i: nat, offset: int,
                                     measure: string -> int, advance: int, colorFromName: string -> Color)
    requires |parts| == |codes| && i <= |parts|
    requires CodesDecodable(parts, codes, i)
    ensures var r := Emit(parts, codes, i, offset, measure, advance, colorFromName);
      && |r| <= |parts| - i
      && (forall j | 0 <= j < |r| :: Trimmed(r[j].text))
      && SpacedFrom(r, offset, measure, advance)
    decreases |parts| - i
  {
    if i < |parts| {
      var t := TrimSpace(parts[i]);
      var next := Advance(t, offset, measure, advance);
      var r := Emit(parts, codes, i, offset, measure, advance, colorFromName);
      var rest := Emit(parts, codes, i + 1, next, measure, advance, colorFromName);
      TrimSpaceTrimmed(parts[i]);
      EmitStep(parts, codes, i, offset, measure, advance, colorFromName);
      EmitShape(parts, codes, i + 1, next, measure, advance, colorFromName);
      if t == [] {
        assert r == rest;
      } else {
        var head := ColoredTextPart(t, NameColor(codes[i], colorFromName), offset);
        assert r == [head] + rest;
        ConsTail(head, rest);
      }
    }
  }

  /** The parts are laid out left to right from `offset`: each starts one
      text width plus one space advance after the one before it. */
  predicate SpacedFrom(r: seq<ColoredTextPart>, offset: int, measure: string -> int, advance: int)
    decreases |r|
  {
    |r| == 0 || (r[0].xOffset == offset && SpacedFrom(r[1..], offset + measure(r[0].text) + advance, measure, advance))
  }

  /** The same layout, read pairwise: part `j + 1` starts a width and a
      space after part `j`. */
  lemma {:induction false} SpacedFromPairwise(r: seq<ColoredTextPart>, offset: int, measure: string -> int,
                                              advance: int, j: nat)
    requires SpacedFrom(r, offset, measure, advance)
    requires j + 1 < |r|
    ensures r[j + 1].xOffset == r[j].xOffset + measure(r[j].text) + advance
    decreases j
  {
    if j > 0 {
      SpacedFromPairwise(r[1..], offset + measure(r[0].text) + advance, measure, advance, j - 1);
    }
  }


  /** A run of text and the name of the colour it is drawn in. */
  datatype Segment = Segment(text: string, colorName: string)

  /** The text runs of `s` from `beg`, each paired with the name of the code
      just before it, or with `name` for the first. */
  function Segments(s: string, ms: seq<Match>, beg: nat, name: string): (r: seq<Segment>)
    requires Chained(s, ms, beg)
    ensures |r| == |ms| + 1
    decreases |ms|
  {
    if |ms| == 0 then [Segment(s[beg..], name)]
    else [Segment(s[beg..ms[0].start], name)] + Segments(s, ms[1..], ms[0].End(), ms[0].name)
  }

  /** What colour-coded text means: every run is in the colour of the
      nearest code before it, and white before the first code. */
  function ColoredSegments(s: string): (r: seq<Segment>)
  {
    Segments(s, FindAll(s, 0), 0, "white")
  }

  predicate SegmentsDecodable(segs: seq<Segment>)
  {
    forall j | 0 <= j < |segs| :: TrimSpace(segs[j].text) != [] ==> Decodable(segs[j].colorName)
  }

  /** Runs `k` onwards laid out left to right from `offset`: blank runs
      are dropped, the others are trimmed and placed one space apart. */
  function Layout(segs: seq<Segment>, k: nat, offset: int, measure: string -> int, advance: int,
                  colorFromName: string -> Color): seq<ColoredTextPart>
    requires k <= |segs| && SegmentsDecodable(segs)
    decreases |segs| - k
  {
    if k == |segs| then []
    else
      var t := TrimSpace(segs[k].text);
      if t == [] then Layout(segs, k + 1, offset, measure, advance, colorFromName)
      else
        [ColoredTextPart(t, NameColor(segs[k].colorName, colorFromName), offset)] +
        Layout(segs, k + 1, offset + measure(t) + advance, measure, advance, colorFromName)
  }

  /** Segment `k` is piece `k` of the split, coloured by code `k - 1`. */
  lemma {:induction false} SegmentsArePieces(s: string, ms: seq<Match>, beg: nat, name: string, k: nat)
    requires Chained(s, ms, beg) && k <= |ms|
    ensures Segments(s, ms, beg, name)[k] ==
      Segment(Pieces(s, ms, beg)[k], if k == 0 then name else ms[k - 1].name)
    decreases |ms|
  {
    if |ms| > 0 && k > 0 {
      SegmentsArePieces(s, ms[1..], ms[0].End(), ms[0].name, k - 1);
    }
  }

  /** The loop over pieces and paired codes is the layout of the segments
      they line up with. */
  lemma {:induction false} EmitIsLayout(parts: seq<string>, codes: seq<string>, segs: seq<Segment>,
                                        shift: nat, i: nat, offset: int,
                                        measure: string -> int, advance: int, colorFromName: string -> Color)
    requires |parts| == |codes| && i <= |parts| && |segs| == |parts| + shift
    requires forall j | i <= j < |parts| :: segs[j + shift] == Segment(parts[j], codes[j])
    requires CodesDecodable(parts, codes, i) && SegmentsDecodable(segs)
    ensures Emit(parts, codes, i, offset, measure, advance, colorFromName) ==
      Layout(segs, i + shift, offset, measure, advance, colorFromName)
    decreases |parts| - i
  {
    if i < |parts| {
      assert segs[i + shift] == Segment(parts[i], codes[i]);
      var next := Advance(TrimSpace(parts[i]), offset, measure, advance);
      EmitIsLayout(parts, codes, segs, shift, i + 1, next, measure, advance, colorFromName);
      EmitLayoutStep(parts, codes, segs, i, i + shift, offset, measure, advance, colorFromName);
    } else {
      assert Emit(parts, codes, i, offset, measure, advance, colorFromName) == [];
      assert Layout(segs, i + shift, offset, measure, advance, colorFromName) == [];
    }
  }

  /** The text run a trimmed piece contributes: nothing when it is empty,
      otherwise one part in the named colour at `offset`. */
  function PartAt(t: string, name: string, offset: int, colorFromName: string -> Color): seq<ColoredTextPart>
    requires t != [] ==> Decodable(name)
  {
    if t == [] then [] else [ColoredTextPart(t, NameColor(name, colorFromName), offset)]
  }

  /** The offset after a trimmed piece: unchanged when it is empty,
      otherwise one text width and one space further on. */
  function Advance(t: string, offset: int, measure: string -> int, advance: int): int
  {
    if t == [] then offset else offset + measure(t) + advance
  }

  /** One step of the correspondence: piece `i` and segment `k` agree, and
      so do the layouts after them, so the layouts from them agree. */
  lemma EmitLayoutStep(parts: seq<string>, codes: seq<string>, segs: seq<Segment>, i: nat, k: nat,
                       offset: int, measure: string -> int, advance: int, colorFromName: string -> Color)
    requires |parts| == |codes| && i < |parts| && k < |segs|
    requires segs[k] == Segment(parts[i], codes[i])
    requires CodesDecodable(parts, codes, i) && SegmentsDecodable(segs)
    requires var next := Advance(TrimSpace(parts[i]), offset, measure, advance);
      Emit(parts, codes, i + 1, next, measure, advance, colorFromName) ==
      Layout(segs, k + 1, next, measure, advance, colorFromName)
    ensures Emit(parts, codes, i, offset, measure, advance, colorFromName) ==
      Layout(segs, k, offset, measure, advance, colorFromName)
  {
    EmitStep(parts, codes, i, offset, measure, advance, colorFromName);
    LayoutStep(segs, k, parts[i], codes[i], offset, measure, advance, colorFromName);
  }

  /** One step of the layout, for segment `k` with text `text` and colour
      name `name`. */
  lemma LayoutStep(segs: seq<Segment>, k: nat, text: string, name: string, offset: int,
                   measure: string -> int, advance: int, colorFromName: string -> Color)
    requires k < |segs| && SegmentsDecodable(segs) && segs[k] == Segment(text, name)
    ensures TrimSpace(text) != [] ==> Decodable(name)
    ensures Layout(segs, k, offset, measure, advance, colorFromName) ==
      PartAt(TrimSpace(text), name, offset, colorFromName) +
      Layout(segs, k + 1, Advance(TrimSpace(text), offset, measure, advance),
             measure, advance, colorFromName)
  {
    if TrimSpace(text) == [] {
      assert PartAt(TrimSpace(text), name, offset, colorFromName) == [];
    }
  }

  /** One iteration of the parser's loop. */
  lemma EmitStep(parts: seq<string>, codes: seq<string>, i: nat, offset: int,
                 measure: string -> int, advance: int, colorFromName: string -> Color)
    requires |parts| == |codes| && i < |parts|
    requires CodesDecodable(parts, codes, i)
    ensures Emit(parts, codes, i, offset, measure, advance, colorFromName) ==
      PartAt(TrimSpace(parts[i]), codes[i], offset, colorFromName) +
      Emit(parts, codes, i + 1, Advance(TrimSpace(parts[i]), offset, measure, advance),
           measure, advance, colorFromName)
  {
    if TrimSpace(parts[i]) == [] {
      assert PartAt(TrimSpace(parts[i]), codes[i], offset, colorFromName) == [];
    }
  }

  /** Decodability carries over between lined-up pieces and segments. */
  lemma AlignedDecodable(parts: seq<string>, codes: seq<string>, segs: seq<Segment>, shift: nat)
    requires |parts| == |codes| && |segs| == |parts| + shift
    requires forall j | 0 <= j < |parts| :: segs[j + shift] == Segment(parts[j], codes[j])
    requires shift <= 1
    requires shift == 0 || TrimSpace(segs[0].text) == []
    ensures CodesDecodable(parts, codes, 0) <==> SegmentsDecodable(segs)
  {
    if CodesDecodable(parts, codes, 0) {
      forall k | 0 <= k < |segs| && TrimSpace(segs[k].text) != []
        ensures Decodable(segs[k].colorName)
      {
        if shift == 1 { assert k != 0; }
        assert segs[(k - shift) + shift] == Segment(parts[k - shift], codes[k - shift]);
      }
    }
    if SegmentsDecodable(segs) {
      forall j | 0 <= j < |parts| && TrimSpace(parts[j]) != []
        ensures Decodable(codes[j])
      {
        assert segs[j + shift] == Segment(parts[j], codes[j]);
      }
    }
  }

  /** The parser means what colour codes are meant to mean: it panics on no
      input whose segments all decode, and it lays out each run of text in
      the colour of the code before it, white before the first code. Where
      the parser drops a leading empty piece or puts "white" in front of the
      codes, the two choices keep pieces and colours paired the same way. */
  lemma ParseFollowsCodes(s: string, measure: string -> int, advance: int, colorFromName: string -> Color)
    ensures CodesDecodable(TextParts(s), CodeNames(s), 0) <==> SegmentsDecodable(ColoredSegments(s))
    ensures SegmentsDecodable(ColoredSegments(s)) ==>
      ParseColorCodedText(s, measure, advance, colorFromName) ==
      Layout(ColoredSegments(s), 0, 0, measure, advance, colorFromName)
  {
    var ms := FindAll(s, 0);
    var pieces := Pieces(s, ms, 0);
    var segs := ColoredSegments(s);
    var parts, codes := TextParts(s), CodeNames(s);
    var shift := if pieces[0] == "" then 1 else 0;
    forall j | 0 <= j < |parts|
      ensures segs[j + shift] == Segment(parts[j], codes[j])
    {
      SegmentsArePieces(s, ms, 0, "white", j + shift);
    }
    SegmentsArePieces(s, ms, 0, "white", 0);
    assert shift == 1 ==> TrimSpace(segs[0].text) == [];
    AlignedDecodable(parts, codes, segs, shift);
    if SegmentsDecodable(segs) {
      EmitIsLayout(parts, codes, segs, shift, 0, 0, measure, advance, colorFromName);
    }
  }
}

=== FILE: engine.dfy ===
/** The editor's own logic: row-major index conversion, the ordering of
    the mapping's keys for the list, the mouse click that selects a list
    entry or assigns an atlas cell to it, and the frame countdown of the
    "saved" message.

    Only the fields these operations read or write are part of the state.
    The list's hit boxes and width come from text measurement and floating
    point layout, and the atlas cell under the mouse from a floating point
    division; all three are given as values here. */
module Engine {
  import opened GoInt
  import opened Geometry
  import opened Atlas

  // ---------------------------------------------------------------------
  // Row-major index conversion
  // ---------------------------------------------------------------------

  /** `IndexToXY`: column and row of a row-major index, with Go's
      truncating `%` and `/` (which panic on a zero width). For a
      non-negative index and a positive width the column lies in the row. */
  function IndexToXY(index: int, width: int): (r: Point)
    requires width != 0
    ensures index >= 0 && width > 0 ==> 0 <= r.x < width && r.y >= 0
  {
    TruncIsEuclideanWhenNonNegative(index, width);
    DivBounds(index, width);
    Point(TruncMod(index, width), TruncDiv(index, width))
  }

  /** `XYToIndex`: the row-major index of column `x` in row `y`. A column
      inside the row gives an index in row `y`'s block of `width` indices. */
  function XYToIndex(x: int, y: int, width: int): (r: int)
    ensures 0 <= x < width ==> y * width <= r < (y + 1) * width
  {
    assert (y + 1) * width == y * width + width;
    y * width + x
  }

  /** Splitting an index and joining it again gives the index back, for
      every index and every non-zero width. */
  lemma IndexRoundTrip(index: int, width: int)
    requires width != 0
    ensures var p := IndexToXY(index, width); XYToIndex(p.x, p.y, width) == index
  {
    TruncDivMod(index, width);
  }

  /** Joining a column inside the row with a row and splitting again gives
      the column and row back. */
  lemma XYRoundTrip(x: int, y: int, width: int)
    requires 0 <= x < width && y >= 0
    ensures IndexToXY(XYToIndex(x, y, width), width) == Point(x, y)
  {
    var index := y * width + x;
    MulBounds(y, width);
    TruncIsEuclideanWhenNonNegative(index, width);
    DivModUnique(index, y, x, width);
  }

  // ---------------------------------------------------------------------
  // Key order
  // ---------------------------------------------------------------------

  /** `cmp.Compare(a, b) <= 0` on strings: lexicographic order by
      character, a proper prefix first. */
  predicate LessEq(a: string, b: string)
  {
    if a == [] then true
    else if b == [] then false
    else if a[0] != b[0] then a[0] < b[0]
    else LessEq(a[1..], b[1..])
  }

  lemma {:induction false} LessEqTotal(a: string, b: string)
    ensures LessEq(a, b) || LessEq(b, a)
  {
    if a != [] && b != [] && a[0] == b[0] {
      LessEqTotal(a[1..], b[1..]);
    }
  }

  lemma {:induction false} LessEqAntisymmetric(a: string, b: string)
    requires LessEq(a, b) && LessEq(b, a)
    ensures a == b
  {
    if a != [] && b != [] {
      LessEqAntisymmetric(a[1..], b[1..]);
      assert a == [a[0]] + a[1..] && b == [b[0]] + b[1..];
    }
  }

  lemma {:induction false} LessEqTransitive(a: string, b: string, c: string)
    requires LessEq(a, b) && LessEq(b, c)
    ensures LessEq(a, c)
  {
    if a != [] && b != [] && c != [] && a[0] == b[0] && b[0] == c[0] {
      LessEqTransitive(a[1..], b[1..], c[1..]);
    }
  }

  /** Ascending in `cmp.Compare` order. */
  predicate Sorted(s: seq<string>)
  {
    forall i, j | 0 <= i < j < |s| :: LessEq(s[i], s[j])
  }

  /** Insert `k` before the first element it does not follow. */
  function Insert(s: seq<string>, k: string): (r: seq<string>)
    ensures multiset(r) == multiset(s) + multiset{k}
  {
    if s == [] then [k]
    else if LessEq(k, s[0]) then [k] + s
    else
      assert s == [s[0]] + s[1..];
      [s[0]] + Insert(s[1..], k)
  }

  /** A string no greater than any element of a sorted sequence can go
      in front of it. */
  lemma SortedCons(h: string, t: seq<string>)
    requires Sorted(t)
    requires forall x | x in t :: LessEq(h, x)
    ensures Sorted([h] + t)
  {
    var r := [h] + t;
    forall i, j | 0 <= i < j < |r|
      ensures LessEq(r[i], r[j])
    {
      assert r[j] == t[j - 1];
      if i > 0 {
        assert r[i] == t[i - 1];
      }
    }
  }

  /** The head of a sorted sequence is its least element. */
  lemma SortedHeadLeast(s: seq<string>, x: string)
    requires Sorted(s) && x in s
    ensures LessEq(s[0], x)
  {
    var j :| 0 <= j < |s| && s[j] == x;
    if j == 0 {
      LessEqTotal(x, x);
    }
  }

  /** The tail of a sorted sequence is sorted. */
  lemma SortedTail(s: seq<string>)
    requires Sorted(s) && s != []
    ensures Sorted(s[1..])
  {
    forall i, j | 0 <= i < j < |s| - 1
      ensures LessEq(s[1..][i], s[1..][j])
    {
      assert s[1..][i] == s[i + 1] && s[1..][j] == s[j + 1];
    }
  }

  lemma {:induction false} InsertSorted(s: seq<string>, k: string)
    requires Sorted(s)
    ensures Sorted(Insert(s, k))
  {
    if s == [] {
      SortedCons(k, s);
    } else if LessEq(k, s[0]) {
      forall x | x in s
        ensures LessEq(k, x)
      {
        SortedHeadLeast(s, x);
        LessEqTransitive(k, s[0], x);
      }
      SortedCons(k, s);
    } else {
      var tail := Insert(s[1..], k);
      SortedTail(s);
      InsertSorted(s[1..], k);
      LessEqTotal(k, s[0]);
      forall x | x in tail
        ensures LessEq(s[0], x)
      {
        assert x in multiset(tail);
        if x != k {
          assert x in s[1..];
          SortedHeadLeast(s, x);
        }
      }
      SortedCons(s[0], tail);
    }
  }

  /** The ordering `SetMapping` applies, as an insertion sort. */
  function SortKeys(s: seq<string>): (r: seq<string>)
    ensures multiset(r) == multiset(s)
  {
    if s == [] then []
    else
      assert s == s[..|s| - 1] + [s[|s| - 1]];
      Insert(SortKeys(s[..|s| - 1]), s[|s| - 1])
  }

  lemma {:induction false} SortKeysSorted(s: seq<string>)
    ensures Sorted(SortKeys(s))
  {
    if s != [] {
      SortKeysSorted(s[..|s| - 1]);
      InsertSorted(SortKeys(s[..|s| - 1]), s[|s| - 1]);
    }
  }

  /** Two ascending sequences holding the same strings are equal: the
      order is a total order, so the sorted arrangement is unique. */
  lemma {:induction false} SortedPermutationUnique(a: seq<string>, b: seq<string>)
    requires Sorted(a) && Sorted(b)
    requires multiset(a) == multiset(b)
    ensures a == b
  {
    if a != [] {
      SortedHeadsEqual(a, b);
      SameTails(a, b);
      SortedTail(a);
      SortedTail(b);
      SortedPermutationUnique(a[1..], b[1..]);
      assert a == [a[0]] + a[1..] && b == [b[0]] + b[1..];
    }
  }

  /** Sorted sequences holding the same strings start with the same one. */
  lemma SortedHeadsEqual(a: seq<string>, b: seq<string>)
    requires Sorted(a) && Sorted(b) && a != []
    requires multiset(a) == multiset(b)
    ensures b != [] && a[0] == b[0]
  {
    assert a[0] in multiset(b);
    assert b[0] in multiset(a);
    SortedHeadLeast(a, b[0]);
    SortedHeadLeast(b, a[0]);
    LessEqAntisymmetric(a[0], b[0]);
  }

  /** Removing the same head from sequences holding the same strings
      leaves tails holding the same strings. */
  lemma SameTails(a: seq<string>, b: seq<string>)
    requires a != [] && b != [] && a[0] == b[0]
    requires multiset(a) == multiset(b)
    ensures multiset(a[1..]) == multiset(b[1..])
  {
    assert a == [a[0]] + a[1..];
    assert b == [b[0]] + b[1..];
    assert multiset(a[1..]) == multiset(a) - multiset{a[0]};
    assert multiset(b[1..]) == multiset(b) - multiset{b[0]};
  }

  // ---------------------------------------------------------------------
  // Editor state
  // ---------------------------------------------------------------------

  /** The editor state the modelled operations touch. `bounds[i]` is the
      inclusive vertical extent `(top, bottom)` of list entry `i`, and
      `listWidth` the list's width truncated to an integer. */
  datatype Engine = Engine(
    iconMapping: map<string, Int32>,
    orderedKeys: seq<string>,
    bounds: seq<(int, int)>,
    listWidth: int,
    selectedListIndex: int,
    selectedAtlasIndex: Int32,
    saveTicks: int)

  /** `NewEngine`: nothing selected, no message showing. */
  function NewEngine(): (e: Engine)
    ensures !HasSelection(e) && e.saveTicks == 0
  {
    Engine(map[], [], [], 0, -1, -1, 0)
  }

  /** The fixed inputs of the list layout: the padding, the list's own
      scroll offset (the top of its first entry), and the icon size, which
      is the atlas tile size times the tile scale. */
  datatype ListStyle = ListStyle(padding: int, top: int, iconSize: Point)

  /** The vertical gap between one entry's text and the next entry. */
  const LineDistance: int := 20

  /** How far below the list's top the entry after `keys` starts: each
      entry takes its text height plus the line distance. `measure(k).y`
      is the text height of key `k`. */
  function ListOffset(keys: seq<string>, measure: string -> Point): (r: int)
    ensures (forall k | k in keys :: measure(k).y >= 0) ==> r >= |keys| * LineDistance
    decreases |keys|
  {
    if keys == [] then 0
    else ListOffset(keys[..|keys| - 1], measure) + measure(keys[|keys| - 1]).y + LineDistance
  }

  /** The hit boxes `updateElementBounds` appends, one per key in list
      order: entry `i` starts below the top by the text heights and line
      distances of the entries before it, and spans the icon's height. */
  function ElementBounds(keys: seq<string>, measure: string -> Point, top: int, iconHeight: int): (r: seq<(int, int)>)
    ensures |r| == |keys|
    ensures forall i | 0 <= i < |r| ::
      r[i] == (top + ListOffset(keys[..i], measure), top + ListOffset(keys[..i], measure) + iconHeight)
    decreases |keys|
  {
    if keys == [] then []
    else
      var n := |keys| - 1;
      var prefix := keys[..n];
      assert forall i | 0 <= i < n :: prefix[..i] == keys[..i];
      var y := top + ListOffset(prefix, measure);
      ElementBounds(prefix, measure, top, iconHeight) + [(y, y + iconHeight)]
  }

  /** With text heights that are never negative, later entries start
      strictly further down. */
  lemma {:induction false} ListOffsetGrows(keys: seq<string>, measure: string -> Point, i: nat, j: nat)
    requires forall k | k in keys :: measure(k).y >= 0
    requires i < j <= |keys|
    ensures ListOffset(keys[..i], measure) < ListOffset(keys[..j], measure)
    decreases j
  {
    var prefix := keys[..j - 1];
    assert keys[..j][..j - 1] == prefix;
    assert keys[j - 1] in keys;
    if i < j - 1 {
      ListOffsetGrows(keys, measure, i, j - 1);
    }
  }

  /** With text heights that are never negative, the entries run strictly
      down the screen in list order, the first at the list's top. */
  lemma ElementBoundsDescend(keys: seq<string>, measure: string -> Point, top: int, iconHeight: int)
    requires forall k | k in keys :: measure(k).y >= 0
    ensures var r := ElementBounds(keys, measure, top, iconHeight);
      && (|r| > 0 ==> r[0].0 == top)
      && forall i, j | 0 <= i < j < |r| :: r[i].0 < r[j].0
  {
    var r := ElementBounds(keys, measure, top, iconHeight);
    if |r| > 0 {
      assert keys[..0] == [];
    }
    forall i, j | 0 <= i < j < |r|
      ensures r[i].0 < r[j].0
    {
      ListOffsetGrows(keys, measure, i, j);
    }
  }

  /** The widest text among the keys, or 0 when there is none wider:
      `maxWidth` starts at 0 and grows to each wider text. `measure(k).x`
      is the text width of key `k`. */
  function MaxTextWidth(keys: seq<string>, measure: string -> Point): (m: int)
    ensures m >= 0
    ensures forall k | k in keys :: measure(k).x <= m
    ensures m == 0 || exists k | k in keys :: measure(k).x == m
    decreases |keys|
  {
    if keys == [] then 0
    else
      var rest := MaxTextWidth(keys[..|keys| - 1], measure);
      var last := keys[|keys| - 1];
      assert keys == keys[..|keys| - 1] + [last];
      if measure(last).x > rest then measure(last).x else rest
  }

  /** `SetMapping`: the mapping becomes the icon mapping and its keys, in
      whatever order Go's map iteration yields them, are sorted into the
      list order; then `updateElementBounds` lays the list out again: one
      hit box per key in that order, and the list width is the widest text
      plus the icon width plus three paddings. The iteration order is the
      `enumeration` parameter (each key exactly once) and `measure` is the
      text measurement. The selection and the message countdown are kept. */
  function SetMapping(e: Engine, mapping: map<string, Int32>, enumeration: seq<string>,
                      measure: string -> Point, style: ListStyle): (r: Engine)
    requires multiset(enumeration) == multiset(mapping.Keys)
    ensures r.iconMapping == mapping
    ensures Sorted(r.orderedKeys)
    ensures multiset(r.orderedKeys) == multiset(mapping.Keys)
    ensures forall k :: k in r.orderedKeys <==> k in mapping
    ensures |r.bounds| == |r.orderedKeys| == |mapping|
    ensures r.bounds == ElementBounds(r.orderedKeys, measure, style.top, style.iconSize.y)
    ensures r.listWidth == MaxTextWidth(r.orderedKeys, measure) + style.iconSize.x + 3 * style.padding
    ensures r.selectedListIndex == e.selectedListIndex && r.selectedAtlasIndex == e.selectedAtlasIndex
    ensures r.saveTicks == e.saveTicks
  {
    var keys := SortKeys(enumeration);
    SortKeysSorted(enumeration);
    assert forall k :: k in keys <==> k in multiset(keys);
    assert |keys| == |multiset(keys)| == |multiset(mapping.Keys)| == |mapping.Keys|;
    e.(iconMapping := mapping, orderedKeys := keys,
       bounds := ElementBounds(keys, measure, style.top, style.iconSize.y),
       listWidth := MaxTextWidth(keys, measure) + style.iconSize.x + 3 * style.padding)
  }

  /** The whole result, list order and layout included, does not depend on
      the map's iteration order. */
  lemma SetMappingDeterministic(e: Engine, mapping: map<string, Int32>, first: seq<string>, second: seq<string>,
                                measure: string -> Point, style: ListStyle)
    requires multiset(first) == multiset(mapping.Keys)
    requires multiset(second) == multiset(mapping.Keys)
    ensures SetMapping(e, mapping, first, measure, style) == SetMapping(e, mapping, second, measure, style)
  {
    SortedPermutationUnique(SetMapping(e, mapping, first, measure, style).orderedKeys,
                            SetMapping(e, mapping, second, measure, style).orderedKeys);
  }

  // ---------------------------------------------------------------------
  // Mouse click
  // ---------------------------------------------------------------------

  /** A list entry is selected and names a key. */
  predicate HasSelection(e: Engine)
  {
    0 <= e.selectedListIndex < |e.orderedKeys|
  }

  /** Reading a Go map: a missing key reads as 0. */
  function MappedIcon(m: map<string, Int32>, key: string): Int32
  {
    if key in m then m[key] else 0
  }

  /** The inclusive vertical extent contains `y`. */
  predicate Hits(bound: (int, int), y: int)
  {
    bound.0 <= y <= bound.1
  }

  /** The first list entry, from `from` on, whose extent contains `y`. */
  function FirstHitFrom(bounds: seq<(int, int)>, y: int, from: nat): (r: Option<nat>)
    requires from <= |bounds|
    ensures r.Some? ==> from <= r.value < |bounds| && Hits(bounds[r.value], y)
    ensures r.Some? ==> forall j | from <= j < r.value :: !Hits(bounds[j], y)
    ensures r.None? ==> forall j | from <= j < |bounds| :: !Hits(bounds[j], y)
    decreases |bounds| - from
  {
    if from == |bounds| then None
    else if Hits(bounds[from], y) then Some(from)
    else FirstHitFrom(bounds, y, from + 1)
  }

  /** The first list entry whose extent contains `y`. */
  function FirstHit(bounds: seq<(int, int)>, y: int): Option<nat>
  {
    FirstHitFrom(bounds, y, 0)
  }

  /** The 32-bit atlas index of a grid cell, as the click stores it. */
  function AtlasIndex(atlasPos: Point, atlasCols: int): Int32
  {
    Wrap32(XYToIndex(atlasPos.x, atlasPos.y, atlasCols))
  }

  /** `handleMouseClick`. `mouse` is the cursor, `atlasPos` the atlas grid
      cell under it and `atlasCols` the atlas's column count. Left of the
      list's right edge, the first entry whose extent contains the cursor
      is selected together with its icon, and the click is consumed;
      missing every entry changes nothing. Right of it, with an entry
      selected, the entry's key is mapped to the atlas cell, which becomes
      the selected icon; the click is not consumed. That assignment sits
      inside the loop over the entries, so with no entries it does not
      happen. */
  method HandleMouseClick(e: Engine, mouse: Point, atlasPos: Point, atlasCols: int)
    returns (r: Engine, handled: bool)
    requires |e.bounds| <= |e.orderedKeys|
    ensures mouse.x <= e.listWidth ==>
      match FirstHit(e.bounds, mouse.y)
      case Some(i) =>
        handled && r == e.(selectedListIndex := i, selectedAtlasIndex := MappedIcon(e.iconMapping, e.orderedKeys[i]))
      case None =>
        !handled && r == e
    ensures mouse.x > e.listWidth ==> !handled
    ensures mouse.x > e.listWidth && |e.bounds| > 0 && HasSelection(e) ==>
      var key, icon := e.orderedKeys[e.selectedListIndex], AtlasIndex(atlasPos, atlasCols);
      r == e.(iconMapping := e.iconMapping[key := icon], selectedAtlasIndex := icon)
    ensures mouse.x > e.listWidth && (|e.bounds| == 0 || !HasSelection(e)) ==> r == e
  {
    r := e;
    var index := 0;
    while index < |e.bounds|
      invariant 0 <= index <= |e.bounds|
      invariant mouse.x <= e.listWidth ==> r == e && forall j | 0 <= j < index :: !Hits(e.bounds[j], mouse.y)
      invariant mouse.x > e.listWidth ==>
        r == if index > 0 && HasSelection(e) then
          var key, icon := e.orderedKeys[e.selectedListIndex], AtlasIndex(atlasPos, atlasCols);
          e.(iconMapping := e.iconMapping[key := icon], selectedAtlasIndex := icon)
        else e
    {
      var bound := r.bounds[index];
      if mouse.x <= r.listWidth {
        if mouse.y >= bound.0 && mouse.y <= bound.1 {
          var key := r.orderedKeys[index];
          r := r.(selectedListIndex := index, selectedAtlasIndex := MappedIcon(r.iconMapping, key));
          assert FirstHit(e.bounds, mouse.y) == Some(index);
          handled := true;
          return;
        }
      } else if r.selectedListIndex >= 0 && r.selectedListIndex < |r.orderedKeys| {
        var atlasIndex := XYToIndex(atlasPos.x, atlasPos.y, atlasCols);
        var selectedKey := r.orderedKeys[r.selectedListIndex];
        r := r.(iconMapping := r.iconMapping[selectedKey := Wrap32(atlasIndex)], selectedAtlasIndex := Wrap32(atlasIndex));
      }
      index := index + 1;
    }
    handled := false;
  }

  /** Cell `(x, y)` of a `cols` by `rows` grid has a row-major index in
      the grid that splits back into `(x, y)`. */
  lemma GridIndex(x: int, y: int, cols: int, rows: int)
    requires 0 <= x < cols && 0 <= y < rows
    ensures 0 <= y * cols + x < cols * rows
    ensures (y * cols + x) % cols == x && (y * cols + x) / cols == y
  {
    MulBounds(y, cols);
    MulMono(y + 1, rows, cols);
    assert (y + 1) * cols == y * cols + cols;
    DivModUnique(y * cols + x, y, x, cols);
  }

  /** On an atlas whose grid has at most 2^31 cells, the index a click on
      grid cell `atlasPos` stores addresses exactly that cell: it is in the
      grid, it splits back into `atlasPos`, and its sub-image starts at the
      cell's pixel corner. */
  lemma AtlasClickPicksCell(a: TextureAtlas, atlasPos: Point)
    requires Addressable(a)
    requires GetCellCount(a).x * GetCellCount(a).y <= TwoTo31
    requires 0 <= atlasPos.x < GetCellCount(a).x && 0 <= atlasPos.y < GetCellCount(a).y
    ensures ValidIndex(a, AtlasIndex(atlasPos, GetCellCount(a).x))
    ensures IndexToXY(AtlasIndex(atlasPos, GetCellCount(a).x), GetCellCount(a).x) == atlasPos
    ensures ExtractSubImageFromAtlas(AtlasIndex(atlasPos, GetCellCount(a).x), a).min ==
      Point(atlasPos.x * a.tileSizeX, atlasPos.y * a.tileSizeY)
  {
    var cols, rows := GetCellCount(a).x, GetCellCount(a).y;
    TruncIsEuclideanWhenNonNegative(a.image.value.width, a.tileSizeX);
    TruncIsEuclideanWhenNonNegative(a.image.value.height, a.tileSizeY);
    assert cols == Cols(a) && rows == Rows(a);
    var index := atlasPos.y * cols + atlasPos.x;
    GridIndex(atlasPos.x, atlasPos.y, cols, rows);
    assert AtlasIndex(atlasPos, cols) == index;
    XYRoundTrip(atlasPos.x, atlasPos.y, cols);
    SubImageOfValidIndex(a, index);
  }

  /** A fresh editor ignores a click on the atlas: nothing is selected. */
  lemma FreshEditorHasNoSelection()
    ensures !HasSelection(NewEngine())
    ensures NewEngine().selectedListIndex == -1 && NewEngine().selectedAtlasIndex == -1
  {
  }

  // ---------------------------------------------------------------------
  // The "saved" message countdown
  // ---------------------------------------------------------------------

  /** The frames the "saved" message stays up, set when S is pressed. */
  const SaveMessageTicks := 30

  /** `Update`'s countdown: pressing S saves and restarts the countdown,
      then every frame takes one tick off while any is left. */
  function Update(e: Engine, savePressed: bool): (r: Engine)
    ensures e.saveTicks >= 0 ==> r.saveTicks >= 0
    ensures r.(saveTicks := e.saveTicks) == e
  {
    var ticks := if savePressed then SaveMessageTicks else e.saveTicks;
    e.(saveTicks := if ticks > 0 then ticks - 1 else ticks)
  }

  /** `n` frames without pressing S. */
  function Frames(e: Engine, n: nat): Engine
    decreases n
  {
    if n == 0 then e else Frames(Update(e, false), n - 1)
  }

  /** The countdown runs down to zero and stays there: after `n` frames
      `max(t - n, 0)` ticks are left. */
  lemma {:induction false} FramesCountDown(e: Engine, n: nat)
    requires e.saveTicks >= 0
    decreases n
    ensures Frames(e, n).saveTicks == if n >= e.saveTicks then 0 else e.saveTicks - n
    ensures Frames(e, n).(saveTicks := e.saveTicks) == e
  {
    if n > 0 {
      FramesCountDown(Update(e, false), n - 1);
    }
  }

  /** After the frame in which S is pressed the message stays up for the
      next 28 frames and is gone from the 29th on. */
  lemma SavedMessageDuration(e: Engine, n: nat)
    ensures Frames(Update(e, true), n).saveTicks > 0 <==> n < SaveMessageTicks - 1
  {
    FramesCountDown(Update(e, true), n);
  }
}

=== FILE: geometry.dfy ===
/** The small value types the renderer passes around: integer points and
    rectangles (the `geometry` package is not part of this model, so only
    what the renderer relies on is defined here), RGBA colours, and an
    optional value for Go's nil pointers. */
module Geometry {
  import opened GoInt

  datatype Option<+T> = None | Some(value: T)

  datatype Point = Point(x: int, y: int)
  {
    function Add(d: Point): Point { Point(x + d.x, y + d.y) }
    function Sub(d: Point): Point { Point(x - d.x, y - d.y) }
  }

  /** An axis-aligned rectangle; `min` is inclusive and `max` exclusive. */
  datatype Rect = Rect(min: Point, max: Point)
  {
    function Width(): int { max.x - min.x }
    function Height(): int { max.y - min.y }

    /** Half-open membership, `min <= p < max` on both axes. */
    predicate Contains(p: Point)
    {
      min.x <= p.x < max.x && min.y <= p.y < max.y
    }

    /** Every point of this rectangle lies inside `outer`. */
    predicate Within(outer: Rect)
    {
      outer.min.x <= min.x && max.x <= outer.max.x &&
      outer.min.y <= min.y && max.y <= outer.max.y
    }

    /** The two rectangles share no point. */
    predicate DisjointFrom(other: Rect)
    {
      max.x <= other.min.x || other.max.x <= min.x ||
      max.y <= other.min.y || other.max.y <= min.y
    }
  }

  /** An 8-bit-per-channel colour, the value `color.RGBA` carries. */
  datatype Color = RGBA(r: Byte, g: Byte, b: Byte, a: Byte)

  const White: Color := RGBA(255, 255, 255, 255)
}

=== FILE: goint.dfy ===
/** Go's fixed-width integer semantics, written out over Dafny's unbounded
    integers: truncating division and remainder, and the wrap-around of the
    conversions `int32(x)`, `uint16(x)` and `uint8(x)`.

    Dafny's `/` and `%` are Euclidean; Go's round the quotient toward zero,
    so the remainder takes the sign of the dividend. The two agree whenever
    the dividend is non-negative and the divisor positive. */
module GoInt {

  const TwoTo31: int := 0x8000_0000
  const TwoTo32: int := 0x1_0000_0000

  type Int32 = x: int | -TwoTo31 <= x < TwoTo31
  type Uint16 = x: int | 0 <= x < 0x1_0000
  type Byte = x: int | 0 <= x < 0x100

  function Abs(x: int): (r: nat)
    ensures r == x || r == -x
  {
    if x < 0 then -x else x
  }

  /** Go's `a / b`: the quotient rounded toward zero. */
  function TruncDiv(a: int, b: int): int
    requires b != 0
  {
    var n := Abs(a) / Abs(b);
    if (a < 0) == (b < 0) then n else -n
  }

  /** Go's `a % b`: the remainder that goes with `TruncDiv`. */
  function TruncMod(a: int, b: int): int
    requires b != 0
  {
    a - TruncDiv(a, b) * b
  }

  /** Go's division rounds toward zero: the remainder is smaller than the
      divisor in magnitude and is zero or carries the dividend's sign. */
  lemma TruncDivMod(a: int, b: int)
    requires b != 0
    ensures a == TruncDiv(a, b) * b + TruncMod(a, b)
    ensures Abs(TruncMod(a, b)) < Abs(b)
    ensures TruncMod(a, b) == 0 || (TruncMod(a, b) < 0 <==> a < 0)
  {
    var n := Abs(a) / Abs(b);
    var m := Abs(a) % Abs(b);
    assert Abs(a) == n * Abs(b) + m;
    if a >= 0 && b > 0 {
    } else if a < 0 && b < 0 {
      assert a == n * b - m;
    } else if a < 0 {
      assert a == (-n) * b - m;
    } else {
      assert a == (-n) * b + m;
    }
  }

  /** On a non-negative dividend and a positive divisor Go's division is
      Dafny's. */
  lemma TruncIsEuclideanWhenNonNegative(a: int, b: int)
    requires b != 0
    ensures a >= 0 && b > 0 ==> TruncDiv(a, b) == a / b && TruncMod(a, b) == a % b
  {
  }

  /** An exact multiple divides back without loss, whatever the signs. */
  lemma TruncDivExact(k: int, b: int)
    requires b != 0
    ensures TruncDiv(k * b, b) == k
    ensures TruncMod(k * b, b) == 0
  {
    var p := k * b;
    AbsMul(k, b);
    MulDivCancel(Abs(k), Abs(b));
    assert Abs(p) / Abs(b) == Abs(k);
    if k > 0 {
      assert (p < 0) == (b < 0) by { MulSign(k, b); }
    } else if k < 0 {
      assert (p < 0) != (b < 0) by { MulSign(k, b); }
    }
  }

  /** The magnitude of a product is the product of the magnitudes. */
  lemma AbsMul(k: int, b: int)
    ensures Abs(k * b) == Abs(k) * Abs(b)
  {
    if k < 0 && b < 0 {
      assert k * b == (-k) * (-b);
    } else if k < 0 {
      assert k * b == -((-k) * b);
      MulMono(0, -k, b);
    } else if b < 0 {
      assert k * b == -(k * (-b));
      MulMono(0, k, -b);
    } else {
      MulMono(0, k, b);
    }
  }

  /** A non-zero factor decides the sign of a product with a non-zero one. */
  lemma MulSign(k: int, b: int)
    requires k != 0 && b != 0
    ensures (k * b < 0) <==> ((k < 0) != (b < 0))
  {
    if k > 0 && b > 0 {
      MulBounds(k, b);
    } else if k > 0 {
      MulBounds(k, -b);
      assert k * b == -(k * (-b));
    } else if b > 0 {
      MulBounds(-k, b);
      assert k * b == -((-k) * b);
    } else {
      MulBounds(-k, -b);
      assert k * b == (-k) * (-b);
    }
  }

  /** Euclidean division is determined by any decomposition with an
      in-range remainder. */
  lemma DivModUnique(x: int, q: int, r: int, n: int)
    requires n > 0 && 0 <= r < n
    requires x == q * n + r
    ensures x / n == q
    ensures x % n == r
  {
    var q0 := x / n;
    var r0 := x % n;
    assert (q0 - q) * n == r - r0;
    MulBounds(q0 - q, n);
  }

  lemma MulBounds(k: int, n: int)
    requires n >= 0
    ensures k >= 1 ==> k * n >= n
    ensures k <= -1 ==> k * n <= -n
  {
    if k >= 1 {
      assert k * n == (k - 1) * n + n;
    } else if k <= -1 {
      assert k * n == (k + 1) * n - n;
    }
  }

  lemma MulDivCancel(m: int, n: int)
    requires n > 0
    ensures (m * n) / n == m
    ensures (m * n) % n == 0
  {
    DivModUnique(m * n, m, 0, n);
  }

  /** The Euclidean quotient brackets the dividend between consecutive
      multiples of the divisor. */
  lemma DivBounds(w: int, t: int)
    ensures t > 0 ==> (w / t) * t <= w < (w / t) * t + t
    ensures t > 0 ==> w % t == w - (w / t) * t
  {
    if t > 0 {
      assert w == (w / t) * t + w % t;
    }
  }

  /** Multiplying by a non-negative factor keeps an order. */
  lemma MulMono(a: int, b: int, c: int)
    ensures a <= b && c >= 0 ==> a * c <= b * c
  {
    if a <= b && c >= 0 {
      MulBounds(b - a, c);
      assert b * c - a * c == (b - a) * c;
    }
  }

  /** The Euclidean quotient of a number below `n * m` is below `m`. */
  lemma DivBelow(i: int, n: int, m: int)
    requires n > 0 && 0 <= i < n * m
    ensures 0 <= i / n < m
  {
    MulMono(m, i / n, n);
    assert m * n == n * m;
  }

  /** Go's `int32(x)`: two's-complement truncation to 32 bits. */
  function Wrap32(x: int): (r: Int32)
    ensures (x - r) % TwoTo32 == 0
    ensures -TwoTo31 <= x < TwoTo31 ==> r == x
  {
    (x + TwoTo31) % TwoTo32 - TwoTo31
  }

  /** Go's `uint16(x)`: the low 16 bits. */
  function Uint16Of(x: int): (r: Uint16)
    ensures (x - r) % 0x1_0000 == 0
    ensures 0 <= x < 0x1_0000 ==> r == x
  {
    x % 0x1_0000
  }

  /** Go's `uint8(x)`: the low 8 bits. */
  function ByteOf(x: int): (r: Byte)
    ensures (x - r) % 0x100 == 0
    ensures 0 <= x < 0x100 ==> r == x
  {
    x % 0x100
  }
}

=== FILE: maprenderer.dfy ===
/** The map renderer: it turns a map window and a per-cell lookup into
    tile draw requests, and a per-cell colour handler into the minimap's
    RGBA byte buffer.

    The lookup (`GetTextureIndexAt`, which forwards to the closure the
    window was built with) and the minimap colour handler are parameters.
    A draw is the `TileRequest` handed to `DrawDefaultScaleTile`; the
    positions the renderer computes in `float64` are exact integers here,
    because the scaled tile size is an integer. */
module MapRenderer {
  import opened GoInt
  import opened Geometry
  import opened Atlas
  import opened TileRenderer
  import MW = MapWindow

  /** What the lookup returns for one cell: an atlas, an icon in it and a
      tint, drawn in the order given. */
  datatype CellDrawInfo = CellDrawInfo(atlas: TextureAtlas, icon: Int32, tint: Color)

  /** The per-cell lookup: cell x, cell y and the frame tick. */
  type Lookup = (int, int, nat) -> seq<CellDrawInfo>

  // ---------------------------------------------------------------------
  // The renderer's own map-to-screen conversion
  // ---------------------------------------------------------------------

  /** One axis of the renderer's `mapToScreen`: the negated remainder of
      the scroll offset by the tile size, plus the cell's distance in whole
      tiles from the tile under the scroll offset. Both `%` and `/` are
      Go's, truncating toward zero. */
  function AxisToScreen(m: int, s: int, ts: int): int
    requires ts > 0
  {
    -TruncMod(s, ts) + (m - TruncDiv(s, ts)) * ts
  }

  /** The renderer's `mapToScreen`. It agrees with the window's
      `MapToScreen` on every cell and every scroll offset, negative ones
      included. */
  function RendererMapToScreen(w: MW.MapWindow, mapPos: Point): (r: Point)
    requires MW.WellFormed(w)
    ensures r == MW.MapToScreen(w, mapPos)
  {
    var ts := MW.TileSize(w);
    StepPosition(w.scrollOffset.x, ts.x, mapPos.x - TruncDiv(w.scrollOffset.x, ts.x));
    StepPosition(w.scrollOffset.y, ts.y, mapPos.y - TruncDiv(w.scrollOffset.y, ts.y));
    Point(AxisToScreen(mapPos.x, w.scrollOffset.x, ts.x), AxisToScreen(mapPos.y, w.scrollOffset.y, ts.y))
  }

  /** A draw step `k` tiles past the tile under the scroll offset lands `k`
      tiles past the negated remainder: the cell's pixel offset minus the
      scroll, for every scroll offset, negative ones included. */
  lemma StepPosition(s: int, ts: int, k: int)
    requires ts > 0
    ensures -TruncMod(s, ts) + k * ts == (TruncDiv(s, ts) + k) * ts - s
  {
    TruncDivMod(s, ts);
    assert (TruncDiv(s, ts) + k) * ts == TruncDiv(s, ts) * ts + k * ts;
  }

  // ---------------------------------------------------------------------
  // DrawOnMap
  // ---------------------------------------------------------------------

  /** `DrawOnMap`: a cell outside the visible range draws nothing; a
      visible one draws one tile at the cell's screen position. */
  function DrawOnMap(w: MW.MapWindow, mapPos: Point, atlas: TextureAtlas, icon: Int32, tint: Color): (r: seq<TileRequest>)
    requires MW.WellFormed(w)
    ensures r == [] <==> !MW.IsMapCellVisible(w, mapPos)
    ensures |r| <= 1
    ensures r != [] ==>
      var p := MW.MapToScreen(w, mapPos);
      r[0] == TileRequest(p.x, p.y, atlas, icon, tint)
  {
    if !MW.IsMapCellVisible(w, mapPos) then []
    else
      var p := RendererMapToScreen(w, mapPos);
      [TileRequest(p.x, p.y, atlas, icon, tint)]
  }

  // ---------------------------------------------------------------------
  // Draw
  // ---------------------------------------------------------------------

  /** The cell under the scroll offset, on each axis. */
  function FirstTile(w: MW.MapWindow): Point
    requires MW.WellFormed(w)
  {
    var ts := MW.TileSize(w);
    Point(TruncDiv(w.scrollOffset.x, ts.x), TruncDiv(w.scrollOffset.y, ts.y))
  }

  /** How many steps `Draw`'s loops take on each axis: the window size
      over the tile size rounded up, or none when that is not positive. */
  function TileCount(w: MW.MapWindow): (r: Point)
    requires MW.WellFormed(w)
    ensures r.x >= 0 && r.y >= 0
  {
    var ts := MW.TileSize(w);
    var cx, cy := MW.CeilDiv(w.windowSize.x, ts.x), MW.CeilDiv(w.windowSize.y, ts.y);
    Point(if cx < 0 then 0 else cx, if cy < 0 then 0 else cy)
  }

  /** With a scroll offset that is not a multiple of the tile size, the
      loops stop short of the window's far edges: in a 320-pixel-wide
      window of 32-pixel tiles scrolled to 1456, columns 45 to 54 are
      drawn, the last one ends at pixel 304, and the visible column 55,
      which would fill the last 16 pixels, is never looked up. */
  lemma DrawLeavesRightStrip()
    ensures var w := MW.MapWindow(Point(320, 240), Point(100, 100), Point(16, 16), Point(1456, 1496), 2);
      && FirstTile(w) == Point(45, 46)
      && TileCount(w) == Point(10, 8)
      && MW.MapToScreen(w, Point(54, 47)).x + MW.TileSize(w).x == 304 < w.windowSize.x
      && MW.IsMapCellVisible(w, Point(55, 47))
      && 55 >= FirstTile(w).x + TileCount(w).x
  {
    var w := MW.MapWindow(Point(320, 240), Point(100, 100), Point(16, 16), Point(1456, 1496), 2);
    assert MW.TileSize(w) == Point(32, 32);
    assert MW.CeilDiv(320, 32) == 10;
    assert MW.CeilDiv(240, 32) == 8;
    assert MW.GetVisibleMap(w) == Rect(Point(45, 46), Point(56, 55));
  }

  /** One request per draw info, in the lookup's order, all at `(x, y)`. */
  function TilesAt(x: int, y: int, infos: seq<CellDrawInfo>): (r: seq<TileRequest>)
    ensures |r| == |infos|
    ensures forall i | 0 <= i < |infos| ::
      r[i] == TileRequest(x, y, infos[i].atlas, infos[i].icon, infos[i].tint)
  {
    seq(|infos|, i requires 0 <= i < |infos| => TileRequest(x, y, infos[i].atlas, infos[i].icon, infos[i].tint))
  }

  /** Everything drawn for one cell: its draw infos at the position the
      window gives the cell. */
  function CellTiles(w: MW.MapWindow, lookup: Lookup, tick: nat, cell: Point): seq<TileRequest>
  {
    var p := MW.MapToScreen(w, cell);
    TilesAt(p.x, p.y, lookup(cell.x, cell.y, tick))
  }

  /** The tiles of the first `n` cells of row `ys` of the drawn range, left
      to right. */
  function RowScene(w: MW.MapWindow, lookup: Lookup, tick: nat, ys: int, n: nat): seq<TileRequest>
    requires MW.WellFormed(w)
  {
    if n == 0 then []
    else RowScene(w, lookup, tick, ys, n - 1) + CellTiles(w, lookup, tick, FirstTile(w).Add(Point(n - 1, ys)))
  }

  /** The tiles of the first `m` rows of the drawn range, top to bottom. */
  function SceneRows(w: MW.MapWindow, lookup: Lookup, tick: nat, m: nat): seq<TileRequest>
    requires MW.WellFormed(w)
  {
    if m == 0 then []
    else SceneRows(w, lookup, tick, m - 1) + RowScene(w, lookup, tick, m - 1, TileCount(w).x)
  }

  /** The whole frame: row by row, the tiles of every cell of
      `firstTile + [0, tileCount)`. */
  function Scene(w: MW.MapWindow, lookup: Lookup, tick: nat): seq<TileRequest>
    requires MW.WellFormed(w)
  {
    SceneRows(w, lookup, tick, TileCount(w).y)
  }

  /** One step of `Draw`'s walk: the tiles drawn at step `(xs, ys)`, at
      the position the loop computes, extend the row by the next cell. */
  lemma DrawStep(w: MW.MapWindow, lookup: Lookup, tick: nat, xs: nat, ys: int,
                 x: int, y: int, infos: seq<CellDrawInfo>)
    requires MW.WellFormed(w)
    requires x == -TruncMod(w.scrollOffset.x, MW.TileSize(w).x) + xs * MW.TileSize(w).x
    requires y == -TruncMod(w.scrollOffset.y, MW.TileSize(w).y) + ys * MW.TileSize(w).y
    requires infos == lookup(FirstTile(w).x + xs, FirstTile(w).y + ys, tick)
    ensures RowScene(w, lookup, tick, ys, xs + 1) == RowScene(w, lookup, tick, ys, xs) + TilesAt(x, y, infos)
  {
    var ts, first := MW.TileSize(w), FirstTile(w);
    var cell := first.Add(Point(xs, ys));
    StepPosition(w.scrollOffset.x, ts.x, xs);
    StepPosition(w.scrollOffset.y, ts.y, ys);
    assert MW.MapToScreen(w, cell) == Point(cell.x * ts.x - w.scrollOffset.x, cell.y * ts.y - w.scrollOffset.y);
    assert MW.MapToScreen(w, cell) == Point(x, y);
  }

  /** One row of `Draw`: for every step `xs` along row `ys`, look up the
      cell `firstTile + (xs, ys)` and draw each of its draw infos at
      `-(scroll % ts) + (xs, ys) * ts`. The row is the row of the scene. */
  method DrawRow(w: MW.MapWindow, lookup: Lookup, tick: nat, ys: int) returns (row: seq<TileRequest>)
    requires MW.WellFormed(w)
    ensures row == RowScene(w, lookup, tick, ys, TileCount(w).x)
  {
    var ts := MW.TileSize(w);
    var first := FirstTile(w);
    var count := TileCount(w);
    var offsetX := -TruncMod(w.scrollOffset.x, ts.x);
    var offsetY := -TruncMod(w.scrollOffset.y, ts.y);
    row := [];
    var xs := 0;
    while xs < count.x
      invariant 0 <= xs <= count.x
      invariant row == RowScene(w, lookup, tick, ys, xs)
    {
      var x := offsetX + xs * ts.x;
      var y := offsetY + ys * ts.y;
      var infos := lookup(first.x + xs, first.y + ys, tick);
      DrawStep(w, lookup, tick, xs, ys, x, y, infos);
      row := row + TilesAt(x, y, infos);
      xs := xs + 1;
    }
  }

  /** `Draw`: the rows of the window-sized grid of tiles, top to bottom;
      nothing when the window has no height or width. The result is the
      scene: each cell of `firstTile + [0, tileCount)` drawn, in row
      order, at the position the window itself gives that cell. */
  method Draw(w: MW.MapWindow, lookup: Lookup, tick: nat) returns (drawn: seq<TileRequest>)
    requires MW.WellFormed(w)
    ensures drawn == Scene(w, lookup, tick)
  {
    var count := TileCount(w);
    drawn := [];
    var ys := 0;
    while ys < count.y
      invariant 0 <= ys <= count.y
      invariant drawn == SceneRows(w, lookup, tick, ys)
    {
      var row := DrawRow(w, lookup, tick, ys);
      drawn := drawn + row;
      ys := ys + 1;
    }
  }

  /** The cells `Draw` looks up, `firstTile + (xs, ys)` for every step, all
      lie inside `GetVisibleMap`. */
  lemma DrawnCellsVisible(w: MW.MapWindow, xs: int, ys: int)
    requires MW.WellFormed(w)
    requires 0 <= xs < TileCount(w).x && 0 <= ys < TileCount(w).y
    ensures MW.IsMapCellVisible(w, FirstTile(w).Add(Point(xs, ys)))
  {
  }

  /** A request is drawn at the screen position of some visible cell. */
  ghost predicate AtVisibleCell(w: MW.MapWindow, r: TileRequest)
    requires MW.WellFormed(w)
  {
    exists cell :: MW.IsMapCellVisible(w, cell) && MW.MapToScreen(w, cell) == Point(r.screenX, r.screenY)
  }

  /** The first `n` cells of a row of the drawn range draw only at visible
      cells. */
  lemma {:induction false} RowSceneVisible(w: MW.MapWindow, lookup: Lookup, tick: nat, ys: int, n: nat)
    requires MW.WellFormed(w)
    requires 0 <= ys < TileCount(w).y && n <= TileCount(w).x
    ensures forall r | r in RowScene(w, lookup, tick, ys, n) :: AtVisibleCell(w, r)
  {
    if n > 0 {
      RowSceneVisible(w, lookup, tick, ys, n - 1);
      var cell := FirstTile(w).Add(Point(n - 1, ys));
      DrawnCellsVisible(w, n - 1, ys);
      forall r | r in CellTiles(w, lookup, tick, cell)
        ensures AtVisibleCell(w, r)
      {
        assert MW.MapToScreen(w, cell) == Point(r.screenX, r.screenY);
      }
    }
  }

  /** `Draw` culls: every tile of the first `m` rows of the frame is drawn
      at the screen position of a cell inside `GetVisibleMap`. */
  lemma {:induction false} SceneVisible(w: MW.MapWindow, lookup: Lookup, tick: nat, m: nat)
    requires MW.WellFormed(w)
    requires m <= TileCount(w).y
    ensures forall r | r in SceneRows(w, lookup, tick, m) :: AtVisibleCell(w, r)
  {
    if m > 0 {
      SceneVisible(w, lookup, tick, m - 1);
      RowSceneVisible(w, lookup, tick, m - 1, TileCount(w).x);
    }
  }

  /** For a window of non-negative size the visible range is the drawn
      range with one more column and one more row: the overscan. */
  lemma VisibleMapOverscan(w: MW.MapWindow)
    requires MW.WellFormed(w)
    requires w.windowSize.x >= 0 && w.windowSize.y >= 0
    ensures MW.GetVisibleMap(w) == Rect(FirstTile(w), FirstTile(w).Add(TileCount(w)).Add(Point(1, 1)))
  {
    var ts := MW.TileSize(w);
    MulBounds(MW.CeilDiv(w.windowSize.x, ts.x) - 1, ts.x);
    MulBounds(MW.CeilDiv(w.windowSize.y, ts.y) - 1, ts.y);
  }

  // ---------------------------------------------------------------------
  // Minimap
  // ---------------------------------------------------------------------

  /** Channel `k` of a colour, in R, G, B, A order. */
  function Channel(c: Color, k: int): Byte
    requires 0 <= k < 4
  {
    if k == 0 then c.r else if k == 1 then c.g else if k == 2 then c.b else c.a
  }

  /** The default minimap colour handler: opaque white for every cell. */
  function DefaultMiniMapColor(mapPos: Point): Color
  {
    RGBA(255, 255, 255, 255)
  }

  /** The first byte of cell `p`'s pixel in a row-major RGBA buffer that
      is `mapWidth` cells wide, plus the channel. */
  function Slot(mapWidth: int, p: Point, channel: int): int
  {
    (p.y * mapWidth + p.x) * 4 + channel
  }

  /** The cell whose pixel byte `i` belongs to. */
  function CellOfByte(mapWidth: int, i: int): Point
    requires mapWidth > 0
  {
    Point((i / 4) % mapWidth, (i / 4) / mapWidth)
  }

  /** The byte the minimap holds at `i`, read off the buffer layout. */
  function MiniMapByte(mapSize: Point, colorOf: Point -> Color, i: int): Byte
  {
    if mapSize.x > 0 then Channel(colorOf(CellOfByte(mapSize.x, i)), i % 4) else 0
  }

  /** A cell inside the map and a channel name a byte inside the buffer,
      and that byte belongs back to the same cell and channel. */
  lemma SlotCell(mapSize: Point, p: Point, channel: int)
    requires 0 <= p.x < mapSize.x && 0 <= p.y < mapSize.y && 0 <= channel < 4
    ensures 0 <= Slot(mapSize.x, p, channel) < mapSize.x * mapSize.y * 4
    ensures CellOfByte(mapSize.x, Slot(mapSize.x, p, channel)) == p
    ensures Slot(mapSize.x, p, channel) % 4 == channel
  {
    var n := p.y * mapSize.x + p.x;
    MulBounds(p.y, mapSize.x);
    MulMono(p.y + 1, mapSize.y, mapSize.x);
    assert (p.y + 1) * mapSize.x == n - p.x + mapSize.x;
    DivModUnique(n * 4 + channel, n, channel, 4);
    DivModUnique(n, p.y, p.x, mapSize.x);
    assert mapSize.x * mapSize.y * 4 == (mapSize.y * mapSize.x) * 4;
  }

  /** Every byte is the slot of its own cell and channel. */
  lemma ByteSlot(mapWidth: int, i: int)
    requires mapWidth > 0 && i >= 0
    ensures i == Slot(mapWidth, CellOfByte(mapWidth, i), i % 4)
  {
    DivBounds(i, 4);
    DivBounds(i / 4, mapWidth);
  }

  /** A byte of a buffer for `mapSize` cells belongs to a cell inside the
      map. */
  lemma CellOfByteInMap(mapSize: Point, i: int)
    requires mapSize.x > 0 && 0 <= i < mapSize.x * mapSize.y * 4
    ensures 0 <= CellOfByte(mapSize.x, i).x < mapSize.x
    ensures 0 <= CellOfByte(mapSize.x, i).y < mapSize.y
  {
    assert mapSize.x * mapSize.y * 4 == 4 * (mapSize.x * mapSize.y);
    DivBelow(i, 4, mapSize.x * mapSize.y);
    DivBelow(i / 4, mapSize.x, mapSize.y);
  }

  /** The buffer after the loops have visited every column before `x` and,
      in column `x`, every row before `y`; unvisited bytes are still 0. */
  function Partial(mapWidth: int, colorOf: Point -> Color, x: int, y: int, i: int): Byte
    requires mapWidth > 0
  {
    var p := CellOfByte(mapWidth, i);
    if p.x < x || (p.x == x && p.y < y) then Channel(colorOf(p), i % 4) else 0
  }

  /** The four channel writes of one cell, R, G, B, A from `base` on. */
  function WriteCell(buf: seq<Byte>, base: int, color: Color): (r: seq<Byte>)
    requires 0 <= base && base + 4 <= |buf|
    ensures |r| == |buf|
  {
    buf[base := color.r][base + 1 := color.g][base + 2 := color.b][base + 3 := color.a]
  }

  /** Writing the four channels of cell `(x, y)` at its slot moves the
      buffer from one partial state to the next. */
  lemma WriteCellStep(mapSize: Point, colorOf: Point -> Color, x: int, y: int, buf: seq<Byte>)
    requires 0 <= x < mapSize.x && 0 <= y < mapSize.y
    requires |buf| == mapSize.x * mapSize.y * 4
    requires forall i | 0 <= i < |buf| :: buf[i] == Partial(mapSize.x, colorOf, x, y, i)
    ensures 0 <= Slot(mapSize.x, Point(x, y), 0) && Slot(mapSize.x, Point(x, y), 0) + 4 <= |buf|
    ensures var next := WriteCell(buf, Slot(mapSize.x, Point(x, y), 0), colorOf(Point(x, y)));
      forall i | 0 <= i < |next| :: next[i] == Partial(mapSize.x, colorOf, x, y + 1, i)
  {
    var base := Slot(mapSize.x, Point(x, y), 0);
    SlotCell(mapSize, Point(x, y), 0);
    SlotCell(mapSize, Point(x, y), 3);
    var next := WriteCell(buf, base, colorOf(Point(x, y)));
    forall i | 0 <= i < |next|
      ensures next[i] == Partial(mapSize.x, colorOf, x, y + 1, i)
    {
      if base <= i < base + 4 {
        SlotCell(mapSize, Point(x, y), i - base);
      } else {
        ByteSlot(mapSize.x, i);
      }
    }
  }

  /** `UpdateMiniMap`: a buffer of `mapSize.x * mapSize.y * 4` bytes,
      filled column by column; cell `(x, y)` writes its four channels at
      `(y * mapSize.x + x) * 4`. Go's `make` panics on a negative length.
      When the map has no columns the loops do not run and the buffer keeps
      its zeros, which the early return states directly. */
  method UpdateMiniMap(mapSize: Point, colorOf: Point -> Color) returns (pixels: seq<Byte>)
    requires mapSize.x * mapSize.y >= 0
    ensures |pixels| == mapSize.x * mapSize.y * 4
    ensures forall i | 0 <= i < |pixels| :: pixels[i] == MiniMapByte(mapSize, colorOf, i)
  {
    var length := mapSize.x * mapSize.y * 4;
    pixels := seq(length, _ => 0);
    if mapSize.x <= 0 {
      return;
    }
    if mapSize.y < 0 {
      MulSign(mapSize.x, mapSize.y);
      assert false;
    }
    var x := 0;
    while x < mapSize.x
      invariant 0 <= x <= mapSize.x
      invariant |pixels| == length
      invariant forall i | 0 <= i < length :: pixels[i] == Partial(mapSize.x, colorOf, x, 0, i)
    {
      var y := 0;
      while y < mapSize.y
        invariant 0 <= y <= mapSize.y
        invariant |pixels| == length
        invariant forall i | 0 <= i < length :: pixels[i] == Partial(mapSize.x, colorOf, x, y, i)
      {
        var base := (y * mapSize.x + x) * 4;
        WriteCellStep(mapSize, colorOf, x, y, pixels);
        pixels := WriteCell(pixels, base, colorOf(Point(x, y)));
        y := y + 1;
      }
      forall i | 0 <= i < length
        ensures pixels[i] == Partial(mapSize.x, colorOf, x + 1, 0, i)
      {
        CellOfByteInMap(mapSize, i);
      }
      x := x + 1;
    }
    forall i | 0 <= i < length
      ensures pixels[i] == MiniMapByte(mapSize, colorOf, i)
    {
      CellOfByteInMap(mapSize, i);
    }
  }

  /** The four bytes of every cell of the map hold that cell's colour, R,
      G, B, A, at `(y * mapSize.x + x) * 4`. */
  lemma MiniMapCellBytes(mapSize: Point, colorOf: Point -> Color, p: Point, channel: int)
    requires 0 <= p.x < mapSize.x && 0 <= p.y < mapSize.y && 0 <= channel < 4
    ensures 0 <= Slot(mapSize.x, p, channel) < mapSize.x * mapSize.y * 4
    ensures MiniMapByte(mapSize, colorOf, Slot(mapSize.x, p, channel)) == Channel(colorOf(p), channel)
  {
    SlotCell(mapSize, p, channel);
  }

  /** Distinct cells own distinct bytes. */
  lemma MiniMapSlotsDisjoint(mapSize: Point, p: Point, q: Point, c: int, d: int)
    requires 0 <= p.x < mapSize.x && 0 <= p.y < mapSize.y && 0 <= c < 4
    requires 0 <= q.x < mapSize.x && 0 <= q.y < mapSize.y && 0 <= d < 4
    requires p != q
    ensures Slot(mapSize.x, p, c) != Slot(mapSize.x, q, d)
  {
    SlotCell(mapSize, p, c);
    SlotCell(mapSize, q, d);
  }

  /** With the default handler the minimap is opaque white throughout. */
  lemma DefaultMiniMapIsWhite(mapSize: Point, i: int)
    requires mapSize.x > 0 && 0 <= i < mapSize.x * mapSize.y * 4
    ensures MiniMapByte(mapSize, DefaultMiniMapColor, i) == 255
  {
    DivBounds(i, 4);
  }
}

=== FILE: mapwindow.dfy ===
/** The map window: which part of a cell map is on screen, and where.

    The window holds its size on screen, the map size in cells, the cell
    size in pixels, the scroll offset (the map pixel at the window's top
    left corner) and the live tile scale. The tile scale is a floating
    point accessor in the program, fixed at 4; here it is a positive
    integer, so `int(float64(n) * scale)` is exactly `n * scale` and
    `int(float64(a) / float64(b))` is Go's truncating division. The
    per-cell lookup belongs to the map renderer and is a parameter there.

    Every operation is pure: a mutation returns the new window. */
module MapWindow {
  import opened GoInt
  import opened Geometry

  datatype MapWindow = MapWindow(windowSize: Point, mapSize: Point, gridSize: Point,
                                 scrollOffset: Point, tileScale: int)

  /** A window whose scaled cell size is positive on both axes: the
      divisions by the cell size then have a meaning. */
  predicate WellFormed(w: MapWindow)
  {
    w.gridSize.x > 0 && w.gridSize.y > 0 && w.tileScale > 0
  }

  /** `NewMapWindow`: the scroll offset starts at the origin. */
  function NewMapWindow(windowSize: Point, mapSize: Point, gridSize: Point, tileScale: int): (w: MapWindow)
    ensures w.scrollOffset == Point(0, 0)
    ensures w.windowSize == windowSize && w.mapSize == mapSize && w.gridSize == gridSize
  {
    MapWindow(windowSize, mapSize, gridSize, Point(0, 0), tileScale)
  }

  /** The size of one cell on screen: the grid size times the tile scale. */
  function TileSize(w: MapWindow): (r: Point)
    ensures WellFormed(w) ==> r.x >= w.gridSize.x > 0 && r.y >= w.gridSize.y > 0
  {
    var r := Point(w.gridSize.x * w.tileScale, w.gridSize.y * w.tileScale);
    assert WellFormed(w) ==> r.x >= w.gridSize.x && r.y >= w.gridSize.y by {
      if WellFormed(w) {
        MulBounds(w.tileScale, w.gridSize.x);
        MulBounds(w.tileScale, w.gridSize.y);
      }
    }
    r
  }

  /** `GetMapSizeInPixels`: the whole map at the current scale. */
  function GetMapSizeInPixels(w: MapWindow): (r: Point)
    ensures r.x == w.mapSize.x * TileSize(w).x && r.y == w.mapSize.y * TileSize(w).y
  {
    var sx := w.mapSize.x * w.gridSize.x * w.tileScale;
    var sy := w.mapSize.y * w.gridSize.y * w.tileScale;
    assert sx == w.mapSize.x * (w.gridSize.x * w.tileScale);
    assert sy == w.mapSize.y * (w.gridSize.y * w.tileScale);
    Point(sx, sy)
  }

  // ---------------------------------------------------------------------
  // Scrolling
  // ---------------------------------------------------------------------

  /** One axis of `setScrollOffset`: when the map is wider than the window
      the offset is pulled back into `[0, mapPx - window]`, the upper
      bound tested first; when it is not, the request is kept as it is. */
  function ClampAxis(v: int, mapPx: int, window: int): (r: int)
    ensures mapPx > window ==> 0 <= r <= mapPx - window
    ensures mapPx > window && 0 <= v <= mapPx - window ==> r == v
    ensures mapPx > window && v < 0 ==> r == 0
    ensures mapPx > window && v > mapPx - window ==> r == mapPx - window
    ensures mapPx <= window ==> r == v
  {
    if mapPx > window then
      if v > mapPx - window then mapPx - window
      else if v < 0 then 0
      else v
    else v
  }

  /** The scroll offset is one `setScrollOffset` can leave behind: inside
      the scroll range on every axis where the map is larger than the
      window. */
  predicate ScrollInRange(w: MapWindow)
  {
    var px := GetMapSizeInPixels(w);
    && (px.x > w.windowSize.x ==> 0 <= w.scrollOffset.x <= px.x - w.windowSize.x)
    && (px.y > w.windowSize.y ==> 0 <= w.scrollOffset.y <= px.y - w.windowSize.y)
  }

  /** `setScrollOffset`: each axis is clamped on its own; nothing but the
      scroll offset changes. */
  function SetScrollOffset(w: MapWindow, newScrollX: int, newScrollY: int): (r: MapWindow)
    ensures ScrollInRange(r)
    ensures r.(scrollOffset := w.scrollOffset) == w
  {
    var px := GetMapSizeInPixels(w);
    w.(scrollOffset := Point(ClampAxis(newScrollX, px.x, w.windowSize.x),
                             ClampAxis(newScrollY, px.y, w.windowSize.y)))
  }

  /** Where the map is larger than the window, the new offset lies in the
      scroll range and a request inside the range is kept; where it is not,
      the request is stored as given, even a negative one. */
  lemma SetScrollOffsetClamps(w: MapWindow, x: int, y: int)
    ensures var px, r := GetMapSizeInPixels(w), SetScrollOffset(w, x, y).scrollOffset;
      && (px.x > w.windowSize.x ==> 0 <= r.x <= px.x - w.windowSize.x)
      && (px.x > w.windowSize.x && 0 <= x <= px.x - w.windowSize.x ==> r.x == x)
      && (px.x <= w.windowSize.x ==> r.x == x)
      && (px.y > w.windowSize.y ==> 0 <= r.y <= px.y - w.windowSize.y)
      && (px.y > w.windowSize.y && 0 <= y <= px.y - w.windowSize.y ==> r.y == y)
      && (px.y <= w.windowSize.y ==> r.y == y)
  {
  }

  /** The axes do not interact: the new x offset depends on the requested x
      only, the new y offset on the requested y only. */
  lemma SetScrollOffsetAxesIndependent(w: MapWindow, x: int, y1: int, y2: int, x1: int, x2: int, y: int)
    ensures SetScrollOffset(w, x, y1).scrollOffset.x == SetScrollOffset(w, x, y2).scrollOffset.x
    ensures SetScrollOffset(w, x1, y).scrollOffset.y == SetScrollOffset(w, x2, y).scrollOffset.y
  {
  }

  /** Clamping is idempotent: setting the offset a window already has
      changes nothing, whenever that offset came from `setScrollOffset`. */
  lemma SetScrollOffsetIdempotent(w: MapWindow)
    requires ScrollInRange(w)
    ensures SetScrollOffset(w, w.scrollOffset.x, w.scrollOffset.y) == w
  {
  }

  /** `ScrollBy`: move the requested offset by `d`, then clamp. */
  function ScrollBy(w: MapWindow, d: Point): (r: MapWindow)
    ensures ScrollInRange(r)
    ensures r.(scrollOffset := w.scrollOffset) == w
  {
    SetScrollOffset(w, w.scrollOffset.x + d.x, w.scrollOffset.y + d.y)
  }

  /** Scrolling by nothing leaves a clamped window alone, and scrolling
      keeps the offset in range. */
  lemma ScrollByZero(w: MapWindow)
    requires ScrollInRange(w)
    ensures ScrollBy(w, Point(0, 0)) == w
  {
    SetScrollOffsetIdempotent(w);
  }

  /** On each axis, scrolling by `d` moves the offset by exactly `d`
      whenever the map is no larger than the window on that axis, or the
      target stays in range. */
  lemma ScrollByMovesExactly(w: MapWindow, d: Point)
    ensures var px := GetMapSizeInPixels(w);
      (px.x <= w.windowSize.x || 0 <= w.scrollOffset.x + d.x <= px.x - w.windowSize.x) ==>
        ScrollBy(w, d).scrollOffset.x == w.scrollOffset.x + d.x
    ensures var px := GetMapSizeInPixels(w);
      (px.y <= w.windowSize.y || 0 <= w.scrollOffset.y + d.y <= px.y - w.windowSize.y) ==>
        ScrollBy(w, d).scrollOffset.y == w.scrollOffset.y + d.y
  {
  }

  /** The pixel position of the centre of cell `m`:
      `int((float64(m) + 0.5) * tileSize)`, that is `(2m + 1) * tileSize / 2`
      rounded toward zero. */
  function CenterAxis(m: int, ts: int): int
  {
    TruncDiv((2 * m + 1) * ts, 2)
  }

  /** `PixelOffsetCenter`: for a non-negative cell and a positive cell
      size, the pixel half a tile (rounded down) past the cell's corner, so
      inside the cell's tile. */
  function PixelOffsetCenter(w: MapWindow, mapPos: Point): (r: Point)
    ensures var ts, c := TileSize(w), PixelOffsetTopLeft(w, mapPos);
      mapPos.x >= 0 && ts.x > 0 ==> r.x == c.x + ts.x / 2 && c.x <= r.x < c.x + ts.x
    ensures var ts, c := TileSize(w), PixelOffsetTopLeft(w, mapPos);
      mapPos.y >= 0 && ts.y > 0 ==> r.y == c.y + ts.y / 2 && c.y <= r.y < c.y + ts.y
  {
    var ts := TileSize(w);
    assert mapPos.x >= 0 && ts.x > 0 ==> CenterAxis(mapPos.x, ts.x) == mapPos.x * ts.x + ts.x / 2 < mapPos.x * ts.x + ts.x by {
      if mapPos.x >= 0 && ts.x > 0 {
        CenterAxisInCell(mapPos.x, ts.x);
      }
    }
    assert mapPos.y >= 0 && ts.y > 0 ==> CenterAxis(mapPos.y, ts.y) == mapPos.y * ts.y + ts.y / 2 < mapPos.y * ts.y + ts.y by {
      if mapPos.y >= 0 && ts.y > 0 {
        CenterAxisInCell(mapPos.y, ts.y);
      }
    }
    Point(CenterAxis(mapPos.x, ts.x), CenterAxis(mapPos.y, ts.y))
  }

  /** The centre of a non-negative cell lies in that cell, half a tile
      (rounded down) from its left edge. */
  lemma CenterAxisInCell(m: int, ts: int)
    requires m >= 0 && ts > 0
    ensures CenterAxis(m, ts) == m * ts + ts / 2
    ensures m * ts <= CenterAxis(m, ts) < m * ts + ts
  {
    var p := (2 * m + 1) * ts;
    assert p == 2 * (m * ts) + ts;
    MulMono(0, 2 * m + 1, ts);
    TruncIsEuclideanWhenNonNegative(p, 2);
    DivModUnique(p, m * ts + ts / 2, ts % 2, 2);
  }

  /** `CenterOn`: request the offset that puts the centre of cell `mapPos`
      in the middle of the window (Go's `windowSize / 2`), then clamp. */
  function CenterOn(w: MapWindow, mapPos: Point): (r: MapWindow)
    ensures ScrollInRange(r)
    ensures r.(scrollOffset := w.scrollOffset) == w
  {
    var c := PixelOffsetCenter(w, mapPos);
    SetScrollOffset(w, c.x - TruncDiv(w.windowSize.x, 2), c.y - TruncDiv(w.windowSize.y, 2))
  }

  /** When no clamping is needed on an axis, `CenterOn` puts the centre of
      the cell exactly half a window from the window's edge on that axis. */
  lemma CenterOnCenters(w: MapWindow, mapPos: Point)
    ensures var px, c, half := GetMapSizeInPixels(w), PixelOffsetCenter(w, mapPos), TruncDiv(w.windowSize.x, 2);
      (px.x <= w.windowSize.x || 0 <= c.x - half <= px.x - w.windowSize.x) ==>
        c.x - CenterOn(w, mapPos).scrollOffset.x == half
    ensures var px, c, half := GetMapSizeInPixels(w), PixelOffsetCenter(w, mapPos), TruncDiv(w.windowSize.y, 2);
      (px.y <= w.windowSize.y || 0 <= c.y - half <= px.y - w.windowSize.y) ==>
        c.y - CenterOn(w, mapPos).scrollOffset.y == half
  {
  }

  /** Centring on cell (50, 50) of 16-pixel cells at scale 2, in a 320 by
      240 window over a 100 by 100 map, aims at the middle of the cell:
      pixel (1616, 1616) minus half the window. */
  lemma CenterOnExample()
    ensures var w := NewMapWindow(Point(320, 240), Point(100, 100), Point(16, 16), 2);
      CenterOn(w, Point(50, 50)).scrollOffset == Point(1456, 1496)
  {
    var w := NewMapWindow(Point(320, 240), Point(100, 100), Point(16, 16), 2);
    assert TileSize(w) == Point(32, 32);
    assert PixelOffsetCenter(w, Point(50, 50)) == Point(1616, 1616);
    assert GetMapSizeInPixels(w) == Point(3200, 3200);
  }

  /** `ResetScrolling`. */
  function ResetScrolling(w: MapWindow): (r: MapWindow)
    ensures r.scrollOffset == Point(0, 0)
    ensures r.(scrollOffset := w.scrollOffset) == w
  {
    w.(scrollOffset := Point(0, 0))
  }

  /** `OnScreenSizeChanged`: only the window size changes; the scroll
      offset is not clamped again, so it may now lie outside the range. */
  function OnScreenSizeChanged(w: MapWindow, newWindowSize: Point): (r: MapWindow)
    ensures r.windowSize == newWindowSize
    ensures r.(windowSize := w.windowSize) == w
  {
    w.(windowSize := newWindowSize)
  }

  /** A resize can leave the offset outside the scroll range: a 10-cell
      map of 16-pixel cells scrolled to its end in a 100-pixel window is
      out of range once the window is 150 pixels wide. */
  lemma ResizeMayLeaveRange()
    ensures var w := MapWindow(Point(100, 100), Point(10, 10), Point(4, 4), Point(60, 0), 4);
      ScrollInRange(w) && !ScrollInRange(OnScreenSizeChanged(w, Point(150, 100)))
  {
    var w := MapWindow(Point(100, 100), Point(10, 10), Point(4, 4), Point(60, 0), 4);
    assert GetMapSizeInPixels(w) == Point(160, 160);
    assert GetMapSizeInPixels(OnScreenSizeChanged(w, Point(150, 100))) == Point(160, 160);
  }

  // ---------------------------------------------------------------------
  // Visible range and coordinate conversion
  // ---------------------------------------------------------------------

  /** `int(math.Ceil(float64(a) / float64(b)))` for a positive `b`. */
  function CeilDiv(a: int, b: int): (r: int)
    requires b > 0
    ensures (r - 1) * b < a <= r * b
  {
    var q := (-a) / b;
    DivBounds(-a, b);
    -q
  }

  /** `GetVisibleMap`: from the cell under the window's top left pixel, as
      many cells as cover the window rounded up, plus one more on each
      axis. */
  function GetVisibleMap(w: MapWindow): (r: Rect)
    requires WellFormed(w)
    ensures r.min == GetMapCellAtScreenPos(w, Point(0, 0))
    ensures var ts := TileSize(w);
      (r.max.x - r.min.x - 2) * ts.x < w.windowSize.x <= (r.max.x - r.min.x - 1) * ts.x
    ensures var ts := TileSize(w);
      (r.max.y - r.min.y - 2) * ts.y < w.windowSize.y <= (r.max.y - r.min.y - 1) * ts.y
  {
    var ts := TileSize(w);
    var first := Point(TruncDiv(w.scrollOffset.x, ts.x), TruncDiv(w.scrollOffset.y, ts.y));
    var count := Point(CeilDiv(w.windowSize.x, ts.x), CeilDiv(w.windowSize.y, ts.y));
    Rect(first, Point(first.x + count.x + 1, first.y + count.y + 1))
  }

  /** `IsMapCellVisible`. */
  predicate IsMapCellVisible(w: MapWindow, cell: Point)
    requires WellFormed(w)
  {
    GetVisibleMap(w).Contains(cell)
  }

  /** `PixelOffsetTopLeft`: the map pixel of a cell's top left corner. */
  function PixelOffsetTopLeft(w: MapWindow, mapPos: Point): Point
  {
    var ts := TileSize(w);
    Point(mapPos.x * ts.x, mapPos.y * ts.y)
  }

  /** The map's pixel size is exactly the extent of its cells: every cell
      of the map has its tile between 0 and the pixel size, and the last
      cell's tile ends on it, on each axis. */
  lemma CellsTileMapSize(w: MapWindow)
    requires WellFormed(w)
    ensures forall x | 0 <= x < w.mapSize.x ::
      0 <= PixelOffsetTopLeft(w, Point(x, 0)).x &&
      PixelOffsetTopLeft(w, Point(x, 0)).x + TileSize(w).x <= GetMapSizeInPixels(w).x
    ensures w.mapSize.x > 0 ==>
      PixelOffsetTopLeft(w, Point(w.mapSize.x - 1, 0)).x + TileSize(w).x == GetMapSizeInPixels(w).x
    ensures forall y | 0 <= y < w.mapSize.y ::
      0 <= PixelOffsetTopLeft(w, Point(0, y)).y &&
      PixelOffsetTopLeft(w, Point(0, y)).y + TileSize(w).y <= GetMapSizeInPixels(w).y
    ensures w.mapSize.y > 0 ==>
      PixelOffsetTopLeft(w, Point(0, w.mapSize.y - 1)).y + TileSize(w).y == GetMapSizeInPixels(w).y
  {
    var ts, px := TileSize(w), GetMapSizeInPixels(w);
    forall x | 0 <= x < w.mapSize.x
      ensures 0 <= PixelOffsetTopLeft(w, Point(x, 0)).x && PixelOffsetTopLeft(w, Point(x, 0)).x + ts.x <= px.x
    {
      CellFits(x, w.mapSize.x, ts.x);
    }
    forall y | 0 <= y < w.mapSize.y
      ensures 0 <= PixelOffsetTopLeft(w, Point(0, y)).y && PixelOffsetTopLeft(w, Point(0, y)).y + ts.y <= px.y
    {
      CellFits(y, w.mapSize.y, ts.y);
    }
    if w.mapSize.x > 0 {
      CellFits(w.mapSize.x - 1, w.mapSize.x, ts.x);
    }
    if w.mapSize.y > 0 {
      CellFits(w.mapSize.y - 1, w.mapSize.y, ts.y);
    }
  }

  /** Cell `k` of `n` cells of size `ts` spans `[k*ts, (k+1)*ts]`, inside
      `[0, n*ts]`, and the last one ends on `n*ts`. */
  lemma CellFits(k: int, n: int, ts: int)
    requires 0 <= k < n && ts > 0
    ensures 0 <= k * ts && k * ts + ts <= n * ts
    ensures k == n - 1 ==> k * ts + ts == n * ts
  {
    MulMono(0, k, ts);
    MulMono(k + 1, n, ts);
  }

  /** Scrolled to the map's pixel size minus the window size, which the
      clamp keeps whether or not the map is larger than the window, the
      last column and row end exactly on the window's far edges. */
  lemma ScrolledToEndShowsLastCell(w: MapWindow)
    requires WellFormed(w) && w.mapSize.x > 0 && w.mapSize.y > 0
    ensures var px := GetMapSizeInPixels(w);
      var r := SetScrollOffset(w, px.x - w.windowSize.x, px.y - w.windowSize.y);
      && MapToScreen(r, Point(w.mapSize.x - 1, 0)).x + TileSize(r).x == w.windowSize.x
      && MapToScreen(r, Point(0, w.mapSize.y - 1)).y + TileSize(r).y == w.windowSize.y
  {
    CellsTileMapSize(w);
  }

  /** `MapToScreen`: the cell's corner relative to the scroll offset.
      Converting back with `GetMapCellAtScreenPos` gives the cell, on every
      cell and every scroll offset. */
  function MapToScreen(w: MapWindow, mapPos: Point): (r: Point)
    ensures WellFormed(w) ==> GetMapCellAtScreenPos(w, r) == mapPos
  {
    var ts := TileSize(w);
    assert WellFormed(w) ==> TruncDiv(mapPos.x * ts.x, ts.x) == mapPos.x && TruncDiv(mapPos.y * ts.y, ts.y) == mapPos.y by {
      if WellFormed(w) {
        TruncDivExact(mapPos.x, ts.x);
        TruncDivExact(mapPos.y, ts.y);
      }
    }
    PixelOffsetTopLeft(w, mapPos).Sub(w.scrollOffset)
  }

  /** `GetMapCellAtScreenPos`: the map pixel under a screen pixel, divided
      by the cell size and rounded toward zero. A non-negative map pixel
      lies in the returned cell's tile; a negative one lies in the tile
      just before it, since the division rounds toward zero. */
  function GetMapCellAtScreenPos(w: MapWindow, pixels: Point): (r: Point)
    requires WellFormed(w)
    ensures var ts, p := TileSize(w), pixels.x + w.scrollOffset.x;
      && (p >= 0 ==> r.x * ts.x <= p < r.x * ts.x + ts.x)
      && (p < 0 ==> r.x * ts.x - ts.x < p <= r.x * ts.x)
    ensures var ts, p := TileSize(w), pixels.y + w.scrollOffset.y;
      && (p >= 0 ==> r.y * ts.y <= p < r.y * ts.y + ts.y)
      && (p < 0 ==> r.y * ts.y - ts.y < p <= r.y * ts.y)
  {
    var ts := TileSize(w);
    TruncCell(pixels.x + w.scrollOffset.x, ts.x);
    TruncCell(pixels.y + w.scrollOffset.y, ts.y);
    Point(TruncDiv(pixels.x + w.scrollOffset.x, ts.x), TruncDiv(pixels.y + w.scrollOffset.y, ts.y))
  }

  /** Go's truncating quotient brackets the dividend from below when it is
      non-negative and from above when it is negative. */
  lemma TruncCell(p: int, t: int)
    requires t > 0
    ensures p >= 0 ==> TruncDiv(p, t) * t <= p < TruncDiv(p, t) * t + t
    ensures p < 0 ==> TruncDiv(p, t) * t - t < p <= TruncDiv(p, t) * t
  {
    TruncIsEuclideanWhenNonNegative(p, t);
    DivBounds(p, t);
    DivBounds(-p, t);
    if p < 0 {
      var q := (-p) / t;
      assert TruncDiv(p, t) == -q;
      assert (-q) * t == -(q * t);
    }
  }

  /** Every pixel of a non-negative cell's tile converts back to that
      cell: the tile at `MapToScreen(cell)` is the cell's full extent. */
  lemma ScreenTileIsCell(w: MapWindow, cell: Point, d: Point)
    requires WellFormed(w)
    requires cell.x >= 0 && cell.y >= 0
    requires 0 <= d.x < TileSize(w).x && 0 <= d.y < TileSize(w).y
    ensures GetMapCellAtScreenPos(w, MapToScreen(w, cell).Add(d)) == cell
  {
    var ts := TileSize(w);
    InCellAxis(cell.x, d.x, ts.x);
    InCellAxis(cell.y, d.y, ts.y);
  }

  lemma InCellAxis(c: int, d: int, ts: int)
    requires c >= 0 && 0 <= d < ts
    ensures TruncDiv(c * ts + d, ts) == c
  {
    MulMono(0, c, ts);
    TruncIsEuclideanWhenNonNegative(c * ts + d, ts);
    DivModUnique(c * ts + d, c, d, ts);
  }

  /** One axis of the coverage argument: with a non-negative scroll, the
      cell under any pixel of a window of `size` pixels lies in the visible
      range. The extra cell is needed: with a partly scrolled first cell
      the last pixel can fall `CeilDiv(size, ts)` cells after the first. */
  lemma ScreenCellInRange(p: int, s: int, size: int, ts: int)
    requires ts > 0 && s >= 0 && 0 <= p < size
    ensures TruncDiv(s, ts) <= TruncDiv(p + s, ts) <= TruncDiv(s, ts) + CeilDiv(size, ts)
  {
    TruncIsEuclideanWhenNonNegative(s, ts);
    TruncIsEuclideanWhenNonNegative(p + s, ts);
    var q, r, k := s / ts, s % ts, CeilDiv(size, ts);
    DivBounds(s, ts);
    assert ts * (k + 1) == k * ts + ts;
    DivBelow(r + p, ts, k + 1);
    DivShift(q, r + p, ts);
    assert p + s == q * ts + (r + p);
  }

  /** Whole tiles pass through the division: `(q * ts + m) / ts` is
      `q + m / ts`. */
  lemma DivShift(q: int, m: int, ts: int)
    requires ts > 0
    ensures (q * ts + m) / ts == q + m / ts
  {
    DivBounds(m, ts);
    assert q * ts + m == (q + m / ts) * ts + m % ts;
    DivModUnique(q * ts + m, q + m / ts, m % ts, ts);
  }

  /** Every screen pixel shows a visible cell: for a non-negative scroll
      offset, the cell under a pixel inside the window is in the visible
      range. */
  lemma ScreenPixelsVisible(w: MapWindow, p: Point)
    requires WellFormed(w)
    requires w.scrollOffset.x >= 0 && w.scrollOffset.y >= 0
    requires 0 <= p.x < w.windowSize.x && 0 <= p.y < w.windowSize.y
    ensures IsMapCellVisible(w, GetMapCellAtScreenPos(w, p))
  {
    var ts := TileSize(w);
    ScreenCellInRange(p.x, w.scrollOffset.x, w.windowSize.x, ts.x);
    ScreenCellInRange(p.y, w.scrollOffset.y, w.windowSize.y, ts.y);
  }

  /** One axis of the overscan bound: a visible cell's tile starts less
      than one tile before the window's edge and less than one tile after
      its far edge. */
  lemma VisibleAxisNearScreen(c: int, s: int, size: int, ts: int)
    requires ts > 0 && s >= 0
    requires TruncDiv(s, ts) <= c < TruncDiv(s, ts) + CeilDiv(size, ts) + 1
    ensures -ts < c * ts - s < size + ts
  {
    TruncIsEuclideanWhenNonNegative(s, ts);
    var q, k := s / ts, CeilDiv(size, ts);
    DivBounds(s, ts);
    MulMono(q, c, ts);
    MulMono(c, q + k, ts);
    assert (q + k) * ts == q * ts + k * ts;
  }

  /** The visible range is at most one tile larger than the window on each
      side: the screen position of every visible cell's tile lies in
      `(-tileSize, windowSize + tileSize)`. */
  lemma VisibleCellsNearScreen(w: MapWindow, cell: Point)
    requires WellFormed(w)
    requires w.scrollOffset.x >= 0 && w.scrollOffset.y >= 0
    requires IsMapCellVisible(w, cell)
    ensures var p, ts := MapToScreen(w, cell), TileSize(w);
      && -ts.x < p.x < w.windowSize.x + ts.x
      && -ts.y < p.y < w.windowSize.y + ts.y
  {
    var ts := TileSize(w);
    VisibleAxisNearScreen(cell.x, w.scrollOffset.x, w.windowSize.x, ts.x);
    VisibleAxisNearScreen(cell.y, w.scrollOffset.y, w.windowSize.y, ts.y);
  }

  /** After `ResetScrolling` the visible range starts at cell (0, 0) and a
      cell's screen position is its map pixel position. */
  lemma ResetShowsOrigin(w: MapWindow, cell: Point)
    requires WellFormed(w)
    ensures GetVisibleMap(ResetScrolling(w)).min == Point(0, 0)
    ensures MapToScreen(ResetScrolling(w), cell) == PixelOffsetTopLeft(w, cell)
  {
  }
}

=== FILE: tilerenderer.dfy ===
/** The tile renderer's geometry: every tile draw becomes one blit of an
    atlas sub-rectangle under a scale-then-translate transform.

    Drawing itself is a foreign call, so a draw is modelled as the `Blit`
    record the renderer would hand over. Scales are positive integers here
    (device scale, tile scale, per-call scale); the colour grading of the
    tint is floating point and not modelled, so a blit carries the tint it
    was given. */
module TileRenderer {
  import opened GoInt
  import opened Geometry
  import opened Atlas
  import opened BitmapFont

  /** The scale-then-translate transform: `x' = scaleX * x + translateX`,
      likewise for y. */
  datatype GeoM = GeoM(scaleX: int, scaleY: int, translateX: int, translateY: int)
  {
    function ApplyX(x: int): int { scaleX * x + translateX }
    function ApplyY(y: int): int { scaleY * y + translateY }
  }

  datatype Blit = Blit(source: Rect, geoM: GeoM, tint: Color)

  /** A request to draw one tile at the renderer's current tile scale, as
      the map renderer issues it. */
  datatype TileRequest = TileRequest(screenX: int, screenY: int, atlas: TextureAtlas, index: Int32, tint: Color)

  /** The atlas can be addressed without a Go panic. */
  predicate CanExtract(a: TextureAtlas)
  {
    a.image.Some? && a.tileSizeX != 0 && ItemCountX(a) != 0
  }

  function Min(a: int, b: int): int { if a <= b then a else b }
  function Max(a: int, b: int): int { if a <= b then b else a }

  /** The core draw. The per-axis scale is the requested scale times the
      device scale and the position is scaled by the device scale too. With
      `flipX` the x scale is negated and the translation moves right by one
      scaled tile width, so the mirrored tile covers the same columns: its
      edges land on the device-scaled position and one tile times the
      combined scale further on, in either order. Rows are never flipped. */
  function DrawTile(deviceScale: int, screenX: int, screenY: int, atlas: TextureAtlas, index: Int32,
                    scaleX: int, scaleY: int, tint: Color, flipX: bool): (b: Blit)
    requires CanExtract(atlas)
    ensures b.source == ExtractSubImageFromAtlas(index, atlas)
    ensures b.tint == tint
    ensures {b.geoM.ApplyX(0), b.geoM.ApplyX(atlas.tileSizeX)} ==
      {screenX * deviceScale, screenX * deviceScale + atlas.tileSizeX * (scaleX * deviceScale)}
    ensures !flipX ==> b.geoM.ApplyX(0) == screenX * deviceScale
    ensures flipX ==> b.geoM.ApplyX(0) == screenX * deviceScale + atlas.tileSizeX * (scaleX * deviceScale)
    ensures b.geoM.ApplyY(0) == screenY * deviceScale
    ensures b.geoM.ApplyY(atlas.tileSizeY) == screenY * deviceScale + atlas.tileSizeY * (scaleY * deviceScale)
  {
    var sx, sy := scaleX * deviceScale, scaleY * deviceScale;
    var tx, ty := screenX * deviceScale, screenY * deviceScale;
    AffineEdges(sx, tx, atlas.tileSizeX);
    AffineEdges(sy, ty, atlas.tileSizeY);
    var geoM :=
      if flipX then GeoM(-sx, sy, tx + atlas.tileSizeX * sx, ty)
      else GeoM(sx, sy, tx, ty);
    Blit(ExtractSubImageFromAtlas(index, atlas), geoM, tint)
  }

  /** Where the edges of a tile of width `w` land under scale `s` and
      translation `t`, unflipped and flipped. */
  lemma AffineEdges(s: int, t: int, w: int)
    ensures s * 0 + t == t && s * w + t == t + w * s
    ensures -s * 0 + (t + w * s) == t + w * s && -s * w + (t + w * s) == t
  {
  }

  /** A flipped tile is the mirror image of the unflipped one: the source
      column `x` lands where the unflipped draw puts column
      `tileSizeX - x`, and rows are untouched. In particular its left and
      right edges land on the unflipped right and left edges. */
  lemma FlipMirrors(deviceScale: int, screenX: int, screenY: int, atlas: TextureAtlas, index: Int32,
                    scaleX: int, scaleY: int, tint: Color, x: int, y: int)
    requires CanExtract(atlas)
    ensures DrawTile(deviceScale, screenX, screenY, atlas, index, scaleX, scaleY, tint, true).geoM.ApplyX(x) ==
      DrawTile(deviceScale, screenX, screenY, atlas, index, scaleX, scaleY, tint, false).geoM.ApplyX(atlas.tileSizeX - x)
    ensures DrawTile(deviceScale, screenX, screenY, atlas, index, scaleX, scaleY, tint, true).geoM.ApplyY(y) ==
      DrawTile(deviceScale, screenX, screenY, atlas, index, scaleX, scaleY, tint, false).geoM.ApplyY(y)
  {
    var sx := scaleX * deviceScale;
    MirrorStep(sx, atlas.tileSizeX, x);
  }

  /** `-sx * x + w * sx` is `sx * (w - x)`. */
  lemma MirrorStep(sx: int, w: int, x: int)
    ensures -sx * x + w * sx == sx * (w - x)
  {
  }

  /** `DrawDefaultScaleTile`: a request drawn at the live tile scale on both
      axes, unflipped: the tile's corner at the device-scaled position and
      its far corner one tile times the tile and device scales further on. */
  function DrawDefaultScaleTile(deviceScale: int, tileScale: int, req: TileRequest): (b: Blit)
    requires CanExtract(req.atlas)
    requires deviceScale > 0 && tileScale > 0
    ensures b.source == ExtractSubImageFromAtlas(req.index, req.atlas)
    ensures b.geoM.ApplyX(0) == req.screenX * deviceScale
    ensures b.geoM.ApplyY(0) == req.screenY * deviceScale
    ensures b.geoM.ApplyX(req.atlas.tileSizeX) == req.screenX * deviceScale + req.atlas.tileSizeX * (tileScale * deviceScale)
    ensures b.geoM.ApplyY(req.atlas.tileSizeY) == req.screenY * deviceScale + req.atlas.tileSizeY * (tileScale * deviceScale)
    ensures req.atlas.tileSizeX > 0 ==> b.geoM.ApplyX(req.atlas.tileSizeX) > b.geoM.ApplyX(0)
    ensures b.tint == req.tint
  {
    var s := tileScale * deviceScale;
    MulBounds(tileScale, deviceScale);
    MulBounds(req.atlas.tileSizeX, s);
    DrawTile(deviceScale, req.screenX, req.screenY, req.atlas, req.index,
             tileScale, tileScale, req.tint, false)
  }

  /** Requests one scaled tile apart are drawn edge to edge: the right
      (bottom) edge of the first tile is the left (top) edge of the second,
      so a row of map cells at the tile pitch leaves no gap and no overlap. */
  lemma DefaultScaleTilesAbut(deviceScale: int, tileScale: int, req: TileRequest, next: TileRequest)
    requires CanExtract(req.atlas) && next.atlas == req.atlas
    requires deviceScale > 0 && tileScale > 0
    ensures next.screenX == req.screenX + req.atlas.tileSizeX * tileScale ==>
      DrawDefaultScaleTile(deviceScale, tileScale, next).geoM.ApplyX(0) ==
      DrawDefaultScaleTile(deviceScale, tileScale, req).geoM.ApplyX(req.atlas.tileSizeX)
    ensures next.screenY == req.screenY + req.atlas.tileSizeY * tileScale ==>
      DrawDefaultScaleTile(deviceScale, tileScale, next).geoM.ApplyY(0) ==
      DrawDefaultScaleTile(deviceScale, tileScale, req).geoM.ApplyY(req.atlas.tileSizeY)
  {
    PitchScales(req.screenX, req.atlas.tileSizeX, tileScale, deviceScale);
    PitchScales(req.screenY, req.atlas.tileSizeY, tileScale, deviceScale);
  }

  /** `(p + w * t) * d` is `p * d + w * (t * d)`. */
  lemma PitchScales(p: int, w: int, t: int, d: int)
    ensures (p + w * t) * d == p * d + w * (t * d)
  {
    assert (p + w * t) * d == p * d + (w * t) * d;
  }

  /** `DrawCharOnScreen`: nothing is drawn while the font is not loaded or
      when the rune has no slot in the font table; otherwise one blit of the
      rune's glyph tile, placed at the given position without device scaling
      and spanning one tile times the device scale times the font scale. */
  function DrawCharOnScreen(deviceScale: int, font: BitmapFont, screenX: int, screenY: int,
                            ch: Rune, scale: int, textColor: Color): (r: seq<Blit>)
    requires IsLoaded(font) && ch in font.fontMap ==> CanExtract(font.atlas)
    ensures |r| <= 1
    ensures |r| == 1 <==> IsLoaded(font) && ch in font.fontMap
    ensures |r| == 1 ==> r[0].source == ExtractSubImageFromAtlas(font.fontMap[ch], font.atlas)
    ensures |r| == 1 ==> r[0].geoM.ApplyX(0) == screenX && r[0].geoM.ApplyY(0) == screenY
    ensures |r| == 1 ==> r[0].geoM.ApplyX(font.atlas.tileSizeX) == screenX + font.atlas.tileSizeX * (deviceScale * scale)
    ensures |r| == 1 ==> r[0].geoM.ApplyY(font.atlas.tileSizeY) == screenY + font.atlas.tileSizeY * (deviceScale * scale)
    ensures |r| == 1 ==> r[0].tint == textColor
  {
    if !IsLoaded(font) then []
    else if ch !in font.fontMap then []
    else
      var fontScale := deviceScale * scale;
      [Blit(ExtractSubImageFromAtlas(font.fontMap[ch], font.atlas),
            GeoM(fontScale, fontScale, screenX, screenY), textColor)]
  }
}
